=== FILE: README.md ===
# Job Start marketplace core in Dafny

This project models the core of Job Start, a small job marketplace. Posters list jobs. Seekers apply for them. A poster accepts one applicant, and the other pending applicants of that job are rejected. Either side marks a job complete, and each side reviews the other. Every review recalculates the reviewee's rating. Notifications go to the people involved.

## How the model is organised

- The shared client state becomes one immutable `Market` value. It holds users, jobs, applications and reviews. The data context itself caches only part of the store: the jobs, the signed-in user's own applications (or, for a poster, the applications to their jobs), the reviews the user received, and users fetched one by one on demand. The model works over one collection of each kind and does not track which documents a given client has loaded.
- Every page handler is a pure transition from one `Market` to the next. It also returns the notification drafts it emits.
- The notification collection is modelled separately, as a sequence of documents in `Store`.
- The fresh document ids, the current time and the outcomes of remote calls become parameters.

Modules follow the program's structure:

- `DataContext` covers `context/DataContext.tsx`: cache queries and updates, adding applications and reviews, and the rating aggregate.
- `Store` covers `lib/firebase/firestore.ts`: notifications, and job and application reads.
- `Applicants`, `Listings`, `Active`, `ReviewsPage`, `ProfilePages` and `SeekerSearch` cover the dashboard pages.
- `Reviewing` holds the review form the listings and active pages share.
- `ProfileForm` holds the profile form logic the two profile pages share.
- `NotificationCenter`, `Avatar` and `DashboardNav` cover the components and the layout.
- `Auth` covers `context/AuthContext.tsx`.
- `Seo` covers `lib/seo.ts`.
- `JobsApi` covers the `/api/jobs` route handler.
- `JobService` covers `services/jobService.ts`.
- `Wrappers`, `Text`, `Seqs`, `Domain` and `Ratings` hold the shared datatypes and helpers:
  - JavaScript string operations, including `split(', ')`, `/\s+/`, `parseFloat` and ASCII case mapping;
  - order-preserving filters;
  - a newest-first sort;
  - rounding as `Math.round` does it.

Frame properties that need document ids to be unique take that uniqueness as a hypothesis. The store assigns ids, so it holds in the running system.

## Model

| member | source | states |
|---|---|---|
| Text.Trim | app/dashboard/poster/listings/page.tsx:90 | No whitespace at either end. Empty exactly when the input is all whitespace. The result is a prefix of the input with leading whitespace removed, and only whitespace follows it there. Whitespace is JavaScript's: Unicode space separators, line terminators, tab, vertical tab, form feed and U+FEFF. |
| Text.SplitOnComma | app/dashboard/profile/page.tsx:49 | At least one piece. The first piece is a prefix of the input. No piece contains ", ". |
| Text.SplitJoined | app/dashboard/profile/page.tsx:49 | Two pieces without ", " joined by ", " split back into exactly those two pieces. |
| Text.ParseNumber | app/dashboard/profile/page.tsx:103 | Not a number exactly when, after leading whitespace and an optional sign, no digit follows. |
| Text.ParseNumberDigits | app/dashboard/profile/page.tsx:103 | A non-empty string of digits parses to its decimal value. |
| Seqs.SortDesc | lib/firebase/firestore.ts:129-135 | The result is in descending key order and is a permutation of the input. |
| DataContext.UpdateUser | context/DataContext.tsx:137-140 | Same length. Every user with the id gets the patch merged over it. Every other user is unchanged. |
| DataContext.UpdateUserIdempotent | context/DataContext.tsx:137-140 | Applying the same user update twice equals applying it once. No user's id changes. |
| DataContext.GetUserById | context/DataContext.tsx:142-149 | The result is a cached user with that id. It is absent exactly when no cached user has the id. |
| DataContext.GetUserByIdUnique | context/DataContext.tsx:142-149 | With unique user ids, a lookup by a user's own id returns that very user. |
| DataContext.UpdateJob | context/DataContext.tsx:156-158 | Same length. Each job with the id gets the patch merged over it. All other jobs are unchanged. |
| DataContext.DeleteJob | context/DataContext.tsx:160-162 | A job survives exactly when it was present and has a different id. The survivors keep their order. |
| DataContext.GetJobById | context/DataContext.tsx:164 | The result is a cached job with the id. It is absent exactly when no job has that id. |
| DataContext.GetJobByIdUnique | context/DataContext.tsx:164 | With unique job ids, a lookup by a job's own id returns that job. |
| DataContext.GetJobsByPosterId | context/DataContext.tsx:166-167 | Contains exactly the jobs of that poster, in cache order. |
| DataContext.GetOpenJobs | context/DataContext.tsx:169 | Contains exactly the open jobs, in cache order. |
| DataContext.AddApplication | context/DataContext.tsx:171-179 | The new application, with the allocated id, is appended. Users and reviews are unchanged. Jobs of other ids are unchanged. |
| DataContext.AddApplicationAppendsApplicant | context/DataContext.tsx:175-177 | The seeker is appended to that job's applicants. A missing list counts as empty. No duplicate check is made. |
| DataContext.UpdateApplication | context/DataContext.tsx:181-184 | Same length. The application with the id gets the patch merged. The others are unchanged. |
| DataContext.GetApplicationById | app/dashboard/poster/applicants/page.tsx:46 | The result is a cached application with that id. It is absent exactly when none has the id. |
| DataContext.GetApplicationsBySeekerId | context/DataContext.tsx:186-187 | Contains exactly the seeker's applications, in cache order. |
| DataContext.GetApplicationsByJobId | context/DataContext.tsx:189-190 | Contains exactly the job's applications, in cache order. |
| DataContext.JobIds | context/DataContext.tsx:193 | An id is listed exactly when some job carries it. |
| DataContext.GetPendingApplicationsForPoster | context/DataContext.tsx:192-195 | Contains exactly the pending applications to a job the poster posted, in cache order. |
| DataContext.GetReviewsByRevieweeId | context/DataContext.tsx:213-214 | Contains exactly the reviews of that reviewee, in order. |
| DataContext.GetReviewsByJobId | context/DataContext.tsx:216-217 | Contains exactly the reviews of that job, in order. |
| DataContext.GetNotificationsByUserId | context/DataContext.tsx:235-236 | Contains exactly that user's notifications, in order. |
| DataContext.GetUnreadCount | context/DataContext.tsx:238-239 | Never exceeds the number of the user's notifications. |
| DataContext.UnreadCountIsUnreadOfUser | context/DataContext.tsx:238-239 | The unread count equals the number of unread notifications in the user's own list. |
| DataContext.AggregateRating | context/DataContext.tsx:202-206 | A rating exists exactly when the reviewee has at least one review. It is then a multiple of one tenth within 0.05 of the mean of the reviewee's received ratings; an exact half rounds up. |
| DataContext.AddReview | context/DataContext.tsx:197-211 | The review is appended. Jobs and applications are unchanged. Users other than the reviewee are unchanged. The reviewee gets only a new rating: the mean of all their received ratings, this one included, rounded to a tenth. |
| DataContext.AddReviewRatingBounds | context/DataContext.tsx:202-206 | When all ratings are 1 to 5, a rating is always written, and it lies in [1.0, 5.0]. |
| DataContext.AddReviewAsWritten | context/DataContext.tsx:204-208 | As the store executes the write, the reviewee's profile becomes an empty profile carrying only the rating. |
| DataContext.AddReviewAsWrittenLosesProfile | context/DataContext.tsx:204-208 | Concrete case: a reviewee with a bio loses it under the write as made. The corrected update keeps it. |
| DataContext.AddReviewKeepsProfile | context/DataContext.tsx:197-211 | The corrected update differs from the old user record only in the profile rating. |
| Ratings.RoundHalfUp | app/dashboard/reviews/page.tsx:45 | The result is the integer nearest to x. Halves go up, as `Math.round` does. |
| Ratings.RoundToTenth | context/DataContext.tsx:206 | The result is a multiple of one tenth, and x - 0.05 < r <= x + 0.05. That pins it to the nearest tenth, with an exact half rounded up. |
| Ratings.MeanWithin | context/DataContext.tsx:203 | When every rating lies in [lo, hi], their mean does too. |
| Ratings.RoundToTenthWithin | context/DataContext.tsx:206 | Rounding to a tenth keeps a value inside integer bounds it already satisfies. |
| Store.CreateNotification | lib/firebase/firestore.ts:288-295 | Appends one notification. It has the given fields, the new id and the creation time, and it is unread. Nothing earlier changes. |
| Store.MarkAsRead | lib/firebase/firestore.ts:297-299 | Fails exactly when no notification has the id, as an update of a missing document does. Otherwise the matching notification becomes read and every other one stays. |
| Store.MarkAsReadIdempotent | lib/firebase/firestore.ts:297-299 | Marking the same notification read twice equals marking it once. |
| Store.MarkAsReadChangesOne | lib/firebase/firestore.ts:297-299 | With unique ids, exactly the k-th notification becomes read. All others are unchanged. |
| Store.MarkAllAsRead | lib/firebase/firestore.ts:301-312 | Same length. Every notification of that user becomes read. Other users' notifications are unchanged. |
| Store.MarkAllAsReadClearsUnread | lib/firebase/firestore.ts:301-312 | Afterwards that user's unread count is zero. |
| Store.ClearAll | lib/firebase/firestore.ts:314-324 | A notification survives exactly when it belongs to another user. Order is kept. |
| Store.ClearAllScope | lib/firebase/firestore.ts:314-324 | Afterwards the user has no notifications left. Every other user's list is unchanged. |
| Store.ReadJobs | lib/firebase/firestore.ts:115-127 | Reads every job document, in order, with `_id` taken from the document id. |
| Store.GetJob | lib/firebase/firestore.ts:95-105 | The result is null exactly when no document has the id. Otherwise it is that document's data, with `_id` set to the document id and `completedAt` kept when unset. |
| Store.GetByPoster | lib/firebase/firestore.ts:129-131 | The result is newest first. It is a permutation of exactly the poster's jobs. |
| Store.GetOpen | lib/firebase/firestore.ts:133-135 | The result is newest first. It is a permutation of exactly the open jobs. |
| Store.GetApplication | lib/firebase/firestore.ts:163-173 | The result is null exactly when no document has the id. Otherwise it is the document's data with `_id` set to the document id. |
| Applicants.Lookup | app/dashboard/poster/applicants/page.tsx:46-50 | Nothing is found exactly when the application is missing, or when its job is missing. Otherwise it returns the cached application and its job. |
| Applicants.Rivals | app/dashboard/poster/applicants/page.tsx:60 | Contains exactly the other pending applications to the same job, in cache order. |
| Applicants.NotSelectedNotices | app/dashboard/poster/applicants/page.tsx:61-72 | One "not selected" notice per rival, to that rival's seeker, in order. |
| Applicants.RejectEach | app/dashboard/poster/applicants/page.tsx:61-72 | Same length. Each application is either unchanged or rejected with the response time. No rivals means no change. |
| Applicants.RejectEachPointwise | app/dashboard/poster/applicants/page.tsx:61-72 | Rejecting the rivals one by one rejects exactly the applications whose id is a rival's id. Every other application is unchanged. |
| Applicants.Accept | app/dashboard/poster/applicants/page.tsx:45-84 | A missing application or job changes nothing and emits nothing. Users and reviews are untouched, and no collection changes length. |
| Applicants.AcceptEffect | app/dashboard/poster/applicants/page.tsx:52-72 | Only status and response time can change. A rival becomes rejected, the target accepted, both stamped with the time. Any other application is unchanged. |
| Applicants.AcceptApplications | app/dashboard/poster/applicants/page.tsx:52-72 | Per application: the target is accepted, applications carrying a rival's id are rejected, and the rest are kept. The target is never among the rivals. |
| Applicants.AcceptAssignsJob | app/dashboard/poster/applicants/page.tsx:55-58 | The accepted job becomes in progress and is assigned to the applicant. Every other job is unchanged. |
| Applicants.AcceptLeavesNoPending | app/dashboard/poster/applicants/page.tsx:52-72 | After an accept, no application to that job is still pending. |
| Applicants.AcceptFrame | app/dashboard/poster/applicants/page.tsx:60 | With unique ids, applications to other jobs are unchanged. So are already-settled applications other than the target. |
| Applicants.AcceptYieldsSingleHire | app/dashboard/poster/applicants/page.tsx:45-84 | With unique ids, accepting into a job with no hire leaves exactly one accepted application for that job. |
| Applicants.AcceptNotifications | app/dashboard/poster/applicants/page.tsx:61-79 | Emits one rejection notice per rival, in rival order, and then exactly one acceptance notice to the hired seeker. All of them name the job. |
| Applicants.Reject | app/dashboard/poster/applicants/page.tsx:86-108 | A missing application or job changes nothing. Otherwise only the target becomes rejected, jobs are untouched, and its seeker gets one rejection notice. |
| Applicants.RelevantApplications | app/dashboard/poster/applicants/page.tsx:41-43 | Contains exactly the applications to jobs the signed-in poster posted. Signed out, it is empty. |
| Applicants.Actions | app/dashboard/poster/applicants/page.tsx:206-221 | Accept and Reject are offered exactly for pending applications. |
| Applicants.AcceptRetiresActions | app/dashboard/poster/applicants/page.tsx:206-221 | After an accept, no application card of that job offers an action. |
| Reviewing.HasReviewed | app/dashboard/poster/listings/page.tsx:111-114 | True exactly when someone is signed in and some review of the job was written by that user. |
| Reviewing.DraftFrom | app/dashboard/poster/listings/page.tsx:84-92 | The stored comment is the trimmed form comment. The rating is the form's. |
| Reviewing.AddReviewMarksReviewed | app/dashboard/poster/listings/page.tsx:111-114 | After the user's review is added, the job counts as reviewed by that user. |
| Reviewing.AddReviewKeepsReviewed | app/dashboard/seeker/active/page.tsx:78-81 | Adding any review never un-reviews a job. |
| Listings.MyJobs | app/dashboard/poster/listings/page.tsx:29 | Contains exactly the signed-in poster's jobs. Signed out, it is empty. |
| Listings.PendingCount | app/dashboard/poster/listings/page.tsx:138-139 | Zero exactly when no application to the job is pending. |
| Listings.PendingCountAppend | app/dashboard/poster/listings/page.tsx:138-139 | Appending an application raises the count by one exactly when it is pending and for that job, and leaves it unchanged otherwise. With the empty case this fixes the count for every list. |
| Listings.PendingBanner | app/dashboard/poster/listings/page.tsx:167-169 | The banner shows exactly for an open job with pending applications. |
| Listings.CardActions | app/dashboard/poster/listings/page.tsx:181-210 | Each action is offered exactly under its condition. Delete: open. View Applicants: open with pending applications. Mark Complete: in progress. Leave Review: completed, assignee known, not reviewed. Review Submitted: completed and reviewed. |
| Listings.ActionsFor | app/dashboard/poster/listings/page.tsx:137-210 | View Applicants is offered exactly for an open job with a pending application to it. Leave Review is offered exactly for a completed job whose assignee is in the user cache and which the user has not reviewed. Review Submitted is shown exactly for a completed job the signed-in user has reviewed. Delete is offered exactly for an open job. Mark Complete is offered exactly for a job in progress. |
| Listings.AcceptHidesViewApplicants | app/dashboard/poster/listings/page.tsx:183 | After an applicant is accepted, the job's card no longer offers View Applicants. |
| Listings.Delete | app/dashboard/poster/listings/page.tsx:37-49 | The dialog closes. With no job chosen nothing changes. Otherwise exactly the jobs with that id disappear, order kept, and nothing else changes. |
| Listings.Complete | app/dashboard/poster/listings/page.tsx:51-73 | A job that is not one of the poster's own changes nothing. Otherwise it becomes completed with the completion time, the review form opens for it, and every other job is unchanged. |
| Listings.CompleteOwnJobsOnly | app/dashboard/poster/listings/page.tsx:51-73 | Signed out, or with no own job of that id, it is a no-op. Otherwise one notice goes out exactly when the job has an assignee, and only to that assignee. |
| Listings.CompleteRetiresMarkComplete | app/dashboard/poster/listings/page.tsx:181-199 | A completed listing no longer offers Mark Complete or Delete. |
| Listings.SubmitReview | app/dashboard/poster/listings/page.tsx:75-109 | Without an open form or a user nothing happens. An unknown or unassigned job just closes the form. Otherwise the assignee is reviewed, told with one notice, and the form resets. |
| Listings.SubmitReviewRetiresLeaveReview | app/dashboard/poster/listings/page.tsx:200-210 | After a successful review the card shows Review Submitted, not Leave Review. The new review is of the assignee. |
| Active.ActiveJobs | app/dashboard/seeker/active/page.tsx:30 | Contains exactly the in-progress jobs assigned to the signed-in seeker, or unassigned when signed out. Cache order is kept. |
| Active.CompletedJobs | app/dashboard/seeker/active/page.tsx:31 | Contains exactly the completed jobs assigned the same way. Cache order is kept. |
| Active.CompleteJob | app/dashboard/seeker/active/page.tsx:33-48 | Signed out, or with the job missing, it is a no-op. Otherwise the job becomes completed with the time, the poster gets one job-completed notice, and the review form opens. |
| Active.CompleteJobMovesToCompleted | app/dashboard/seeker/active/page.tsx:30-48 | Completing an active job moves it from the In Progress list to the Completed list. |
| Active.SubmitReview | app/dashboard/seeker/active/page.tsx:50-76 | Without a form or a user nothing happens. With the job missing the form stays open. Otherwise the poster is reviewed and told, and the form resets. |
| Active.OffersLeaveReview | app/dashboard/seeker/active/page.tsx:158-189 | Leave Review is offered exactly when nobody is signed in or no review of the job was written by the signed-in user. |
| Active.SubmitReviewRetiresLeaveReview | app/dashboard/seeker/active/page.tsx:78-81 | After a successful review Leave Review is no longer offered. The last review is by the seeker, of the job's poster. |
| ProfileForm.DigitsOnly | app/dashboard/profile/page.tsx:63-71 | Only digits remain, in input order. Each digit occurs exactly as often as in the input, and every other character occurs zero times. |
| ProfileForm.DigitsOnlyIdempotent | app/dashboard/profile/page.tsx:63-71 | Sanitising twice equals sanitising once. An all-digit input is unchanged. |
| ProfileForm.ToggleSkill | app/dashboard/profile/page.tsx:73-80 | The skill becomes present exactly when it was absent. Every other skill's membership is unchanged. |
| ProfileForm.ToggleSkillTwice | app/dashboard/profile/page.tsx:73-80 | Toggling a new skill on and then off restores the list exactly. |
| ProfileForm.ToggleSkillNoDuplicates | app/dashboard/complete-profile/page.tsx:52-59 | Toggling keeps a duplicate-free skill list duplicate-free. |
| ProfileForm.ComposeLocation | app/dashboard/profile/page.tsx:89-91 | With both parts given, the location is "street, barangay". Otherwise it is whichever part is given. |
| ProfileForm.ParseLocation | app/dashboard/profile/page.tsx:49-55 | A missing location gives two empty fields. A location without ", " is all barangay, with no street. The street is always a prefix of the location. Neither field contains ", ". |
| ProfileForm.LocationRoundTrip | app/dashboard/profile/page.tsx:49-55 | Saving and reloading restores street and barangay exactly when neither field contains ", " and the street is not given alone. A lone street comes back as the barangay. |
| ProfileForm.StreetWithSeparatorSplits | app/dashboard/profile/page.tsx:49-55 | The street is free text. A street "a, b" saved with barangay "c" reloads as barangay "b" and street "a", so "c" is lost. |
| ProfileForm.LoadFields | app/dashboard/profile/page.tsx:47-61 | The fields hold the parsed location and the stored skills. The rate field is empty exactly when no rate is stored. |
| ProfileForm.SaveProfile | app/dashboard/profile/page.tsx:89-104 | Rating, completed-jobs count and photo are kept from the cached profile. The form's location and skills are written. An empty rate field keeps the old rate; otherwise the field is parsed. |
| ProfileForm.LoadSaveKeepsRate | app/dashboard/profile/page.tsx:47-104 | Loading a profile and saving it unchanged keeps the rate, the rating and the skills. |
| ProfileForm.TypedRateStored | app/dashboard/profile/page.tsx:102-104 | A non-empty sanitised rate is stored as its decimal value. |
| ProfilePages.LoadPage | app/dashboard/profile/page.tsx:50-59 | The page form carries the stored username and the loaded fields. |
| ProfilePages.SubmitPage | app/dashboard/profile/page.tsx:82-109 | Signed out, nothing changes. Only the signed-in user's record changes, and jobs, applications and reviews are untouched. |
| ProfilePages.SubmitPageWritesUser | app/dashboard/profile/page.tsx:82-109 | The saved user has the form's username and profile. Rating, completed jobs and the completed flag are kept. |
| ProfilePages.OpenAndSaveUnchanged | app/dashboard/profile/page.tsx:47-109 | Opening the page and saving it unedited keeps username, rate and rating. The location is kept exactly when the street was not stored alone. |
| ProfilePages.ChooseAvatar | app/dashboard/complete-profile/page.tsx:155 | Choosing a preset changes only the avatar field. |
| ProfilePages.UseInitials | app/dashboard/complete-profile/page.tsx:171-175 | Use Initials clears the avatar and moves to step 2. |
| ProfilePages.Continue | app/dashboard/complete-profile/page.tsx:182-184 | Continue moves to step 2 only when an avatar is chosen. The fields are unchanged. |
| ProfilePages.Back | app/dashboard/complete-profile/page.tsx:275 | Back returns to step 1 with the fields unchanged. |
| ProfilePages.SubmitWizard | app/dashboard/complete-profile/page.tsx:71-101 | Signed out, nothing changes. Otherwise only the user's record is written and the page redirects to the role's dashboard. |
| ProfilePages.RedirectIfComplete | app/dashboard/complete-profile/page.tsx:45-50 | Redirects exactly when the cached user's profile is complete, and then to the role's dashboard. |
| ProfilePages.SubmitWizardCompletes | app/dashboard/complete-profile/page.tsx:45-101 | After submitting, the user's profile is what `SaveProfile` builds from the entered fields, the profile is marked complete and the username is kept. Revisiting redirects to the same dashboard the submit went to. |
| ReviewsPage.MyReviews | app/dashboard/reviews/page.tsx:23 | Contains exactly the reviews of the signed-in user. Signed out, it is empty. |
| ReviewsPage.Average | app/dashboard/reviews/page.tsx:25-27 | With no reviews the average is 0. Otherwise it times the number of reviews equals the sum of the ratings: it is their mean. |
| ReviewsPage.Stars | app/dashboard/reviews/page.tsx:88 | Five stars. Star i is filled exactly when i is at most the rating. |
| ReviewsPage.StarsCount | app/dashboard/reviews/page.tsx:88 | The number of filled stars is the rating clamped to 0..5. |
| ReviewsPage.SummaryStars | app/dashboard/reviews/page.tsx:43-46 | Five stars, as many filled as the rounded average clamped to 0..5. No reviews means no filled star. |
| ReviewsPage.SummaryBounds | app/dashboard/reviews/page.tsx:36-47 | With ratings in 1..5, the average lies in [1, 5]. The summary fills its rounded value of stars, between 1 and 5. |
| ReviewsPage.BasedOn | app/dashboard/reviews/page.tsx:49 | "review" takes a plural s exactly when the count is not 1. |
| ReviewsPage.ReviewerName | app/dashboard/reviews/page.tsx:78 | Never empty. It is "Anonymous" exactly when the reviewer is unknown, has an empty name, or is literally named "Anonymous". |
| ReviewsPage.CommentShown | app/dashboard/reviews/page.tsx:93-97 | A comment is shown exactly when it is present and non-empty. |
| Avatar.Words | components/1-atoms/Avatar.tsx:22 | At least one piece, and no piece contains whitespace. There is one piece exactly when the string has no whitespace, and then it is the whole string. |
| Avatar.WordsLast | components/1-atoms/Avatar.tsx:22-24 | The last piece is a suffix of the string. With several pieces, a whitespace character precedes it. |
| Avatar.Initials | components/1-atoms/Avatar.tsx:20-25 | A missing or empty name gives "?". Blank gives "". Otherwise: the capitalised first letter, then one more letter exactly when the trimmed name has several words; at most two letters. |
| Avatar.ColorFor | components/1-atoms/Avatar.tsx:27-41 | Always a palette colour. It is the first colour for a missing name, otherwise the colour at the character-code sum mod 8. |
| Avatar.CodeSumAppend | components/1-atoms/Avatar.tsx:39 | The code sum of a concatenation is the sum of the parts' sums. |
| Avatar.ColorSwapInvariant | components/1-atoms/Avatar.tsx:39-40 | Swapping the two halves of a name keeps its colour. |
| Seo.SiteUrl | lib/seo.ts:6 | Never empty. A configured non-empty URL wins. |
| Seo.PageMetadata | lib/seo.ts:87-117 | The title is the given one. Canonical and Open Graph URLs are site plus path. A given non-empty description is used; an absent or empty one becomes the site description. A given non-empty image is used; otherwise "/og-image.png". The Twitter image equals the Open Graph image. Robots are set exactly when noIndex, and then forbid indexing and following. |
| Seo.Truncate | lib/seo.ts:126-128 | At most 160 characters. Short input is kept. Longer input becomes its first 157 characters plus "...". |
| Seo.RateLabel | components/3-organisms/JobCard.tsx:42 | Peso sign, the rate's decimal digits, then "/hr". |
| Seo.JobMetadataAsWritten | lib/seo.ts:119-135 | As written: title "title - location" and path "/jobs/id". |
| Seo.JobDescriptionAsWrittenMislabels | lib/seo.ts:132 | For every rate, the as-written description does not end with the rate label the cards show. |
| Seo.JobMetadata | lib/seo.ts:119-135 | Corrected: same title and path, and indexing stays allowed. |
| Seo.JobDescriptionLabelsRate | lib/seo.ts:126-132 | The corrected description is the truncated description, then " \| ", then the card's rate label. |
| SeekerSearch.Search | app/dashboard/seeker/page.tsx:51-64 | A job is kept exactly when the query is blank or hits its title or description case-insensitively, and the category is blank or equal. Order is kept, and a kept job appears as often as in the input. |
| SeekerSearch.SearchShowsAllWhenBlank | app/dashboard/seeker/page.tsx:51-64 | With no query and no category, every job is shown. |
| SeekerSearch.SearchIgnoresCase | app/dashboard/seeker/page.tsx:54-58 | Lower-casing the query does not change the result. |
| Auth.SetUser | context/AuthContext.tsx:40-46 | The state is consistent, not loading, and holds the given user. |
| Auth.CheckAuth | context/AuthContext.tsx:48-51 | Only loading ends. Consistency is preserved. |
| Auth.Logout | context/AuthContext.tsx:53-56 | Signed out, consistent, and sent to the login page. From then on every guarded page, whatever roles it allows, redirects to that page. |
| Auth.RequireAuth | context/AuthContext.tsx:92-111 | While loading it does nothing. Unauthenticated users go to login. A wrong role goes to the user's own dashboard. |
| Auth.GuardMatchesAuthorized | context/AuthContext.tsx:92-111 | In a consistent settled state, the guard lets a user stay exactly when signed in and authorised. |
| Auth.EmptyRoleListRedirects | context/AuthContext.tsx:104-110 | An empty role list authorises nobody and redirects every signed-in user to their dashboard. |
| DashboardNav.LinksFor | app/dashboard/layout.tsx:104-105 | Seekers get the seeker links. Everyone else, signed-out users included, gets the poster links. |
| DashboardNav.HomeFor | app/dashboard/layout.tsx:106 | The home is the role's dashboard, and it is the first nav link. |
| DashboardNav.AtMostOneActive | app/dashboard/layout.tsx:80-109 | No path highlights two links of one menu. |
| DashboardNav.OwnPageActive | app/dashboard/layout.tsx:80-109 | Each link is active on its own page. The exact-match first link is active only there. |
| NotificationCenter.AgeOf | components/2-molecules/NotificationCenter.tsx:76-87 | "Just now" exactly under a minute. Otherwise minutes below 60, hours below 24 or days, each the floor of the elapsed time in that unit. |
| NotificationCenter.Badge | components/2-molecules/NotificationCenter.tsx:97-100 | No badge exactly when nothing is unread. Above 9 it shows "9+". Otherwise the digits of the count. |
| NotificationCenter.Window | components/2-molecules/NotificationCenter.tsx:146 | The list shows a prefix of the notifications: all of them when there are ten or fewer, otherwise exactly the first ten. |
| NotificationCenter.MoreCount | components/2-molecules/NotificationCenter.tsx:180-184 | The "+N more" line appears exactly when there are more than ten, with N the total minus ten. |
| NotificationCenter.WindowAccountsForAll | components/2-molecules/NotificationCenter.tsx:146-184 | Shown plus "more" equals the total. The shown items are the leading ones. |
| NotificationCenter.Icon | components/2-molecules/NotificationCenter.tsx:19-26 | Every unknown kind falls back to the credentials key icon. |
| NotificationCenter.Click | components/2-molecules/NotificationCenter.tsx:56-60 | Clicking a read notification changes nothing. An unread one is marked read in the store. |
| NotificationCenter.ClickLeavesRead | components/2-molecules/NotificationCenter.tsx:56-60 | With unique ids, a click on any listed notification succeeds and leaves it read. |
| NotificationCenter.MarkAll | components/2-molecules/NotificationCenter.tsx:62-66 | Signed out, nothing changes. Otherwise the result is the store's `markAllAsRead` for that user: the user's notifications become read, nothing is deleted, other users' notifications are unchanged, and the badge disappears. |
| NotificationCenter.Clear | components/2-molecules/NotificationCenter.tsx:68-74 | Signed out, nothing changes. Otherwise exactly the other users' notifications remain. |
| NotificationCenter.ClearGuardHarmless | components/2-molecules/NotificationCenter.tsx:68-74 | The "has notifications" guard never changes the result of clearing. |
| JobsApi.Or | app/api/jobs/route.ts:31-33 | Returns the value when it is truthy, otherwise the fallback. |
| JobsApi.NewJob | app/api/jobs/route.ts:26-37 | The stored job keeps the four required fields. Falsy duration, urgency and category become null, false and "General". It is unowned, open and stamped now. |
| JobsApi.Post | app/api/jobs/route.ts:8-52 | 400 with the missing-fields message exactly when a required field is falsy. 201 exactly when valid and inserted, carrying the new id. Otherwise 500. A job is stored exactly on 201. |
| JobsApi.FalsyFieldsRejected | app/api/jobs/route.ts:15-20 | A rate of 0 or an empty title is rejected as missing, and nothing is stored. |
| JobsApi.Param | app/api/jobs/route.ts:63-70 | A search parameter counts exactly when present and non-empty. |
| JobsApi.BuildFilter | app/api/jobs/route.ts:61-72 | Each filter is set exactly when its parameter is non-empty. Status is always "open". |
| JobsApi.Take | app/api/jobs/route.ts:78 | A prefix of at most n items. A short list is kept whole. |
| JobsApi.Get | app/api/jobs/route.ts:57-90 | Fails exactly when the collection read fails. Otherwise the first 50 matches in stored order (all of them when there are fewer), as a multiset, sorted newest first: exactly min(matches, 50) jobs, each stored, open and matching. |
| JobsApi.GetReturnsAllMatches | app/api/jobs/route.ts:57-90 | With at most 50 matches, every match is returned exactly once. |
| JobService.JsRem80 | services/jobService.ts:47 | JavaScript's truncating remainder by 80: it takes the sign of the dividend and is congruent to it mod 80. |
| JobService.ErrorText | services/jobService.ts:19 | The server's non-empty message, or else the fallback. |
| JobService.MapPost | services/jobService.ts:40-51 | Fixed poster, category, location and status. The rate is 20 plus the truncated remainder of the id by 80: 20..99 for non-negative ids. |
| JobService.MapPostIdRoundTrip | services/jobService.ts:41 | The job's string id parses back to the post's numeric id. |
| JobService.GetJobs | services/jobService.ts:35-53 | Fails exactly when the reply is not ok, with the server's message or the fallback. A missing list gives no jobs. Otherwise one job per post, in order. |
| JobService.GetJobsAllOpen | services/jobService.ts:35-53 | For posts with non-negative ids, every mapped job is open with a rate in 20..99. |
| JobService.CreateJob | services/jobService.ts:12-33 | Fails exactly when the reply is not ok. Otherwise the job carries the input fields, the location defaults to "Remote", and the id parses back to the reply's id. |

## Left out

- Network and database I/O, real-time subscriptions and Firestore `Timestamp` conversion are left out. The handlers are modelled as atomic transitions over the cached state. The source's awaits can interleave with subscription updates, and that concurrency is not modelled.
- Clocks and id allocation are parameters: `now`, and the fresh document id.
- The authentication routes and `services/authService.ts` are not part of this model. Password hashing and sign-up/login are outside the core. So is the sign-in layout.
- Rendering, toasts, loading spinners, modals and styling are left out. Only what decides which actions, counts and labels appear is modelled.
- DataContext.UpdateJob: the source writes only to the store and relies on the subscription to refresh the cache. The model applies the update to the cached jobs directly.
- DataContext.GetUserById: the background fetch of a missing user is left out. The call returns "not found", as the source does on that call.
- JobsApi.Get: the `$text` full-text index is a parameter (`textHit`), since its tokenising and stemming belong to the database. The location regex is treated as a literal case-insensitive substring. Mongo's natural order is taken to be stored order.
- Seqs.SortDesc: Firestore breaks ties in `orderBy` by document id. The model leaves the order among equal creation times unspecified, and no contract depends on it.
- JavaScript numbers are modelled as integers (rates, ids, ratings) or reals (averages). Floating-point rounding error is not modelled.
- Listings.SubmitReview: built on the corrected `DataContext.AddReview`. The page as written calls `addReview`, whose store write replaces the reviewee's whole profile (`DataContext.AddReviewAsWritten`, see Findings). The model does not state that loss for this handler.
- Active.SubmitReview: built on the corrected `DataContext.AddReview`, for the same reason as `Listings.SubmitReview`. The write as made would wipe the poster's profile.
- Reviewing.HasReviewed: looks at every review of the job. The page sees only the reviews cached in the data context, which are the ones the signed-in user received. After a reload it cannot see the user's own earlier review of someone else, so Leave Review comes back on a reviewed job. That reappearance is not modelled; `Active.OffersLeaveReview` and `Listings.ActionsFor` inherit it.
- The pages import `APPLICATION_STATUS`, `JOB_STATUS`, `SKILLS` and `BARANGAYS` from `constants/index.ts`, which does not define them. The status values are taken from the string literal types `ApplicationStatus` (`interfaces/Application.ts`) and `JobStatus` (`interfaces/Job.ts`). The skill and barangay lists are not modelled; skills and barangays are free strings.
- Seo.Truncate: counts Unicode scalar values. The source's `length` and `substring` count UTF-16 code units, which differ for characters outside the Basic Multilingual Plane.
- Text.ParseNumber: `parseFloat` is modelled on leading whitespace, an optional sign and leading decimal digits. `NaN` is `None`. Fractions and exponents are not parsed.
- Text.Lower: `toLowerCase` and `toUpperCase` are modelled on ASCII letters only.
- Avatar.ColorFor: sums Unicode scalar values. The source sums UTF-16 code units, which differ for characters outside the Basic Multilingual Plane.
- Avatar.Initials: takes whole Unicode scalar values. The source's `charAt(0)` takes one UTF-16 code unit, so for a word starting with a character outside the Basic Multilingual Plane the source shows a lone surrogate where the model shows the whole character.
- Listings.Complete: tests `assignedTo` for presence, where the page tests its truthiness. They differ only for an empty-string assignee, which cannot occur because assignees are seeker ids. The same holds for `Listings.SubmitReview`.
- The "+N more" label and the `formatTime` strings are modelled as data (`MoreCount`, `AgeOf`). The exact formatting of dates with `toLocaleDateString` is not modelled.
- `app/dashboard/complete-profile/page.tsx` shows the same mis-encoded peso sign in a form label. It is display-only, so it is not modelled.
- The seeker applications page, the job detail page, the public jobs pages, the sitemap and robots files are outside the core. So are the theme toggle and the other atoms.

## Findings

| source | as written | input that shows it | evidently intended | confidence | as-written member | corrected member |
|---|---|---|---|---|---|---|
| context/DataContext.tsx:204-208 | `updateDoc` is given a nested `profile: { rating }` object, which replaces the whole stored profile map | a reviewee with a bio, skills or rate receives any review: afterwards the profile holds only `rating` | update only `profile.rating` (a dotted field path), keeping the rest of the profile | high (not executed) | DataContext.AddReviewAsWritten | DataContext.AddReview |
| lib/seo.ts:132 | the job description ends in "â‚±" then the rate, the UTF-8 bytes of "₱" decoded as Windows-1252 | any job, e.g. rate 150: the description ends "â‚±150/hr" instead of "₱150/hr" | the peso sign "₱" that the job cards show | high (not executed) | Seo.JobMetadataAsWritten | Seo.JobMetadata |

=== FILE: active.dfy ===
/** The seeker's Active Jobs page: the in-progress and completed jobs
    assigned to them, and the complete and review handlers. */
module Active {
  import opened Wrappers
  import opened Seqs
  import opened Domain
  import opened DataContext
  import opened Reviewing

  /** `user?.id`: absent when nobody is signed in. */
  function SignedInId(user: Option<AuthUser>): Option<Id> {
    if user.Some? then Some(user.value.id) else None
  }

  function AssignedWith(user: Option<AuthUser>, status: JobStatus): Job -> bool {
    (j: Job) => j.assignedTo == SignedInId(user) && j.status == status
  }

  /** The "In Progress" list. The comparison is with `user?.id`, so when
      nobody is signed in it holds for the unassigned jobs. */
  function ActiveJobs(jobs: seq<Job>, user: Option<AuthUser>): (r: seq<Job>)
    ensures forall j :: j in r <==>
      (j in jobs && j.status == InProgress &&
       if user.Some? then j.assignedTo == Some(user.value.id) else j.assignedTo.None?)
    ensures IsSubsequence(r, jobs)
  {
    Filter(jobs, AssignedWith(user, InProgress))
  }

  /** The "Completed" list, with the same comparison. */
  function CompletedJobs(jobs: seq<Job>, user: Option<AuthUser>): (r: seq<Job>)
    ensures forall j :: j in r <==>
      (j in jobs && j.status == Completed &&
       if user.Some? then j.assignedTo == Some(user.value.id) else j.assignedTo.None?)
    ensures IsSubsequence(r, jobs)
  {
    Filter(jobs, AssignedWith(user, Completed))
  }

  /** The seeker's name is not part of the signed-in user's record, so the
      notice always names "A seeker". */
  function SeekerCompletedNotice(job: Job): NotificationDraft {
    NotificationDraft(job.posterId, JobCompleted, "Job Completed",
      "A seeker has marked \"" + job.title + "\" as completed.", Some(job.id))
  }

  /** `handleCompleteJob`: any cached job with that id (the page does not
      check the assignment) becomes `completed`, its poster is told, and the
      review form opens. Signed out, or with no such job, nothing happens. */
  function CompleteJob(m: Market, user: Option<AuthUser>, form: ReviewForm, jobId: Id, now: Millis): (o: Outcome)
    ensures user.None? || GetJobById(m.jobs, jobId).None? ==> o == Outcome(m, form, [])
    ensures o.market.users == m.users && o.market.applications == m.applications && o.market.reviews == m.reviews
    ensures |o.market.jobs| == |m.jobs|
    ensures forall i :: 0 <= i < |m.jobs| && m.jobs[i].id != jobId ==> o.market.jobs[i] == m.jobs[i]
    ensures user.Some? && GetJobById(m.jobs, jobId).Some? ==>
      o.form == form.(reviewingJob := Some(jobId)) &&
      |o.emitted| == 1 && o.emitted[0].userId == GetJobById(m.jobs, jobId).value.posterId &&
      o.emitted[0].kind == JobCompleted &&
      forall i :: 0 <= i < |m.jobs| && m.jobs[i].id == jobId ==>
        o.market.jobs[i] == m.jobs[i].(status := Completed, completedAt := Some(now))
  {
    if user.None? then Outcome(m, form, [])
    else
      match GetJobById(m.jobs, jobId)
      case None => Outcome(m, form, [])
      case Some(job) =>
        var jobs := UpdateJob(m.jobs, jobId, JobPatch(Some(Completed), None, None, Some(now)));
        Outcome(m.(jobs := jobs), form.(reviewingJob := Some(jobId)), [SeekerCompletedNotice(job)])
  }

  /** Completing an in-progress job assigned to the seeker moves it from the
      "In Progress" list to the "Completed" list. */
  lemma CompleteJobMovesToCompleted(m: Market, user: AuthUser, form: ReviewForm, jobId: Id, now: Millis, i: nat)
    requires i < |m.jobs| && m.jobs[i].id == jobId
    requires m.jobs[i] in ActiveJobs(m.jobs, Some(user))
    ensures var jobs := CompleteJob(m, Some(user), form, jobId, now).market.jobs;
      jobs[i] in CompletedJobs(jobs, Some(user)) && jobs[i] !in ActiveJobs(jobs, Some(user)) &&
      jobs[i].completedAt == Some(now)
  {
    var jobs := CompleteJob(m, Some(user), form, jobId, now).market.jobs;
    assert jobs[i] in jobs;
  }

  /** `handleSubmitReview` on the active-jobs page. Without an open form or a
      signed-in user, or when the job is not cached, nothing happens (the
      form stays open); otherwise the poster is reviewed, told so, and the
      form resets. */
  function SubmitReview(m: Market, user: Option<AuthUser>, form: ReviewForm, reviewId: Id, now: Millis): (o: Outcome)
    ensures form.reviewingJob.None? || user.None? ==> o == Outcome(m, form, [])
    ensures o.market.jobs == m.jobs && o.market.applications == m.applications
    ensures form.reviewingJob.Some? && user.Some? ==>
      match GetJobById(m.jobs, form.reviewingJob.value)
      case None => o == Outcome(m, form, [])
      case Some(job) =>
        o.form == ClosedForm &&
        o.market == AddReview(m, DraftFrom(form, job.id, user.value.id, job.posterId, now), reviewId) &&
        o.emitted == [ReviewNotice(job.posterId, form.rating, job)]
  {
    if form.reviewingJob.None? || user.None? then Outcome(m, form, [])
    else
      match GetJobById(m.jobs, form.reviewingJob.value)
      case None => Outcome(m, form, [])
      case Some(job) =>
        var d := DraftFrom(form, form.reviewingJob.value, user.value.id, job.posterId, now);
        Outcome(AddReview(m, d, reviewId), ClosedForm, [ReviewNotice(job.posterId, form.rating, job)])
  }

  /** Leave Review is offered on a completed card until the seeker has
      reviewed the job. */
  function OffersLeaveReview(m: Market, user: Option<AuthUser>, job: Job): (b: bool)
    ensures b <==> (user.None? ||
      forall i :: 0 <= i < |m.reviews| && m.reviews[i].jobId == job.id ==> m.reviews[i].reviewerId != user.value.id)
  {
    !HasReviewed(m.reviews, job.id, user)
  }

  /** After a successful review the completed card shows "Review Submitted"
      instead of Leave Review, and the review is of the job's poster. */
  lemma SubmitReviewRetiresLeaveReview(m: Market, user: AuthUser, form: ReviewForm, reviewId: Id, now: Millis, job: Job)
    requires form.reviewingJob.Some?
    requires GetJobById(m.jobs, form.reviewingJob.value) == Some(job)
    ensures var o := SubmitReview(m, Some(user), form, reviewId, now);
      !OffersLeaveReview(o.market, Some(user), job) &&
      o.market.reviews[|o.market.reviews| - 1].revieweeId == job.posterId &&
      o.market.reviews[|o.market.reviews| - 1].reviewerId == user.id
  {
    var d := DraftFrom(form, form.reviewingJob.value, user.id, job.posterId, now);
    AddReviewMarksReviewed(m, d, reviewId, user);
  }
}

=== FILE: applicants.dfy ===
/** The poster's Applicants page: which applications it lists, which
    actions it offers, and the accept and reject handlers as atomic
    transitions that also emit notifications. */
module Applicants {
  import opened Wrappers
  import opened Seqs
  import opened Domain
  import opened DataContext

  // ---------------------------------------------------------------------
  // Notifications
  // ---------------------------------------------------------------------

  /** Sent to every rival whose pending application the accept turns down. */
  function NotSelectedNotice(seekerId: Id, job: Job): NotificationDraft {
    NotificationDraft(seekerId, ApplicationRejected, "Application Update",
      "Your application for \"" + job.title + "\" was not selected. Keep applying!", Some(job.id))
  }

  /** Sent to the seeker whose application is rejected directly. */
  function RejectedNotice(seekerId: Id, job: Job): NotificationDraft {
    NotificationDraft(seekerId, ApplicationRejected, "Application Update",
      "Your application for \"" + job.title + "\" was not selected.", Some(job.id))
  }

  /** Sent to the hired seeker. */
  function HiredNotice(seekerId: Id, job: Job): NotificationDraft {
    NotificationDraft(seekerId, ApplicationAccepted, "Application Accepted!",
      "Congratulations! You've been hired for \"" + job.title + "\"", Some(job.id))
  }

  function NotSelectedNotices(rivals: seq<Application>, job: Job): (r: seq<NotificationDraft>)
    ensures |r| == |rivals|
    ensures forall i :: 0 <= i < |rivals| ==> r[i] == NotSelectedNotice(rivals[i].seekerId, job)
  {
    if rivals == [] then [] else [NotSelectedNotice(rivals[0].seekerId, job)] + NotSelectedNotices(rivals[1..], job)
  }

  // ---------------------------------------------------------------------
  // Lookup shared by both handlers
  // ---------------------------------------------------------------------

  datatype Target = Target(app: Application, job: Job)

  /** The application with that id and its job, found in the caches; either
      missing makes the handler return without doing anything. */
  function Lookup(m: Market, appId: Id): (r: Option<Target>)
    ensures r.None? <==>
      GetApplicationById(m.applications, appId).None? ||
      GetJobById(m.jobs, GetApplicationById(m.applications, appId).value.jobId).None?
    ensures r.Some? ==>
      r.value.app in m.applications && r.value.app.id == appId &&
      r.value.job in m.jobs && r.value.job.id == r.value.app.jobId
  {
    match GetApplicationById(m.applications, appId)
    case None => None
    case Some(app) =>
      match GetJobById(m.jobs, app.jobId)
      case None => None
      case Some(job) => Some(Target(app, job))
  }

  // ---------------------------------------------------------------------
  // Accept
  // ---------------------------------------------------------------------

  function RivalOf(jobId: Id, appId: Id): Application -> bool {
    (a: Application) => a.jobId == jobId && a.id != appId && a.status == Pending
  }

  /** The other pending applications to the same job, in cache order. */
  function Rivals(apps: seq<Application>, jobId: Id, appId: Id): (r: seq<Application>)
    ensures forall a :: a in r <==> a in apps && a.jobId == jobId && a.id != appId && a.status == Pending
    ensures IsSubsequence(r, apps)
  {
    Filter(apps, RivalOf(jobId, appId))
  }

  function AppIds(apps: seq<Application>): (r: seq<Id>)
    ensures forall id :: id in r <==> exists a :: a in apps && a.id == id
  {
    if apps == [] then [] else [apps[0].id] + AppIds(apps[1..])
  }

  function Respond(a: Application, status: ApplicationStatus, now: Millis): Application {
    a.(status := status, respondedAt := Some(now))
  }

  /** The handler's loop: each rival in turn is updated to `rejected`. */
  function RejectEach(apps: seq<Application>, rivals: seq<Application>, now: Millis): (r: seq<Application>)
    ensures |r| == |apps|
    ensures forall i :: 0 <= i < |apps| ==> r[i] == apps[i] || r[i] == Respond(apps[i], Rejected, now)
    ensures rivals == [] ==> r == apps
    decreases |rivals|
  {
    if rivals == [] then apps
    else RejectEach(UpdateApplication(apps, rivals[0].id, ApplicationPatch(Some(Rejected), Some(now))), rivals[1..], now)
  }

  /** After the loop, exactly the applications carrying a rival's id are
      rejected (with the response time), all others unchanged. */
  lemma {:induction false} RejectEachPointwise(apps: seq<Application>, rivals: seq<Application>, now: Millis)
    ensures |RejectEach(apps, rivals, now)| == |apps|
    ensures forall i :: 0 <= i < |apps| ==>
      RejectEach(apps, rivals, now)[i] ==
        (if apps[i].id in AppIds(rivals) then Respond(apps[i], Rejected, now) else apps[i])
    decreases |rivals|
  {
    if rivals != [] {
      var once := UpdateApplication(apps, rivals[0].id, ApplicationPatch(Some(Rejected), Some(now)));
      RejectEachPointwise(once, rivals[1..], now);
      assert AppIds(rivals) == [rivals[0].id] + AppIds(rivals[1..]);
    }
  }

  /** `handleAccept`: the application becomes `accepted`, the job
      `in_progress` and assigned to its seeker, every other pending
      application to the job is rejected with a notice, and the hired seeker
      is told last. A missing application or job changes nothing. */
  function Accept(m: Market, appId: Id, now: Millis): (s: Step)
    ensures Lookup(m, appId).None? ==> s == Step(m, [])
    ensures s.market.users == m.users && s.market.reviews == m.reviews
    ensures |s.market.applications| == |m.applications| && |s.market.jobs| == |m.jobs|
  {
    match Lookup(m, appId)
    case None => Step(m, [])
    case Some(t) =>
      var accepted := UpdateApplication(m.applications, appId, ApplicationPatch(Some(Accepted), Some(now)));
      var jobs := UpdateJob(m.jobs, t.job.id, JobPatch(Some(InProgress), Some(t.app.seekerId), None, None));
      var rivals := Rivals(m.applications, t.app.jobId, appId);
      RejectEachPointwise(accepted, rivals, now);
      var apps := RejectEach(accepted, rivals, now);
      Step(m.(applications := apps, jobs := jobs), NotSelectedNotices(rivals, t.job) + [HiredNotice(t.app.seekerId, t.job)])
  }

  /** The effect of accept on one application, given the rivals' ids. */
  function AcceptEffect(a: Application, ids: seq<Id>, appId: Id, now: Millis): (r: Application)
    ensures r.(status := a.status, respondedAt := a.respondedAt) == a
    ensures a.id !in ids && a.id != appId ==> r == a
    ensures a.id in ids ==> r.status == Rejected && r.respondedAt == Some(now)
    ensures a.id !in ids && a.id == appId ==> r.status == Accepted && r.respondedAt == Some(now)
  {
    if a.id in ids then Respond(a, Rejected, now)
    else if a.id == appId then Respond(a, Accepted, now)
    else a
  }

  /** The loop after the target's update, element by element. */
  lemma RejectAfterAccept(apps: seq<Application>, rivals: seq<Application>, appId: Id, now: Millis)
    requires forall a :: a in rivals ==> a.id != appId
    ensures var r := RejectEach(UpdateApplication(apps, appId, ApplicationPatch(Some(Accepted), Some(now))), rivals, now);
      |r| == |apps| &&
      forall i :: 0 <= i < |apps| ==> r[i] == AcceptEffect(apps[i], AppIds(rivals), appId, now)
  {
    var accepted := UpdateApplication(apps, appId, ApplicationPatch(Some(Accepted), Some(now)));
    RejectEachPointwise(accepted, rivals, now);
    var r := RejectEach(accepted, rivals, now);
    forall i | 0 <= i < |apps|
      ensures r[i] == AcceptEffect(apps[i], AppIds(rivals), appId, now)
    {
      if apps[i].id == appId {
        assert accepted[i] == Respond(apps[i], Accepted, now);
      } else {
        assert accepted[i] == apps[i];
      }
    }
  }

  /** What accept does to each application: the target is accepted, every
      application sharing a rival's id rejected, and the rest kept. */
  lemma AcceptApplications(m: Market, appId: Id, now: Millis, t: Target)
    requires Lookup(m, appId) == Some(t)
    ensures var r := Accept(m, appId, now).market.applications;
      var ids := AppIds(Rivals(m.applications, t.app.jobId, appId));
      appId !in ids &&
      forall i :: 0 <= i < |m.applications| ==> r[i] == AcceptEffect(m.applications[i], ids, appId, now)
  {
    var rivals := Rivals(m.applications, t.app.jobId, appId);
    forall a | a in rivals
      ensures a.id != appId
    {
    }
    RejectAfterAccept(m.applications, rivals, appId, now);
  }

  /** With unique ids, an application carrying a rival's id is that rival:
      pending and for the same job. */
  lemma RivalIdIsRival(apps: seq<Application>, jobId: Id, appId: Id, i: nat)
    requires UniqueApplicationIds(apps)
    requires i < |apps| && apps[i].id in AppIds(Rivals(apps, jobId, appId))
    ensures apps[i].jobId == jobId && apps[i].status == Pending && apps[i].id != appId
  {
    var rivals := Rivals(apps, jobId, appId);
    var a :| a in rivals && a.id == apps[i].id;
    var k :| 0 <= k < |apps| && apps[k] == a;
    assert !(i < k) && !(k < i);
  }

  /** Accept sets the job `in_progress` and assigns it to the applicant. */
  lemma AcceptAssignsJob(m: Market, appId: Id, now: Millis, t: Target)
    requires Lookup(m, appId) == Some(t)
    ensures var r := Accept(m, appId, now).market.jobs;
      forall i :: 0 <= i < |m.jobs| ==>
        r[i] == (if m.jobs[i].id == t.app.jobId
                 then m.jobs[i].(status := InProgress, assignedTo := Some(t.app.seekerId))
                 else m.jobs[i])
  {
  }

  /** After an accept no application to that job is still pending. */
  lemma AcceptLeavesNoPending(m: Market, appId: Id, now: Millis, t: Target)
    requires Lookup(m, appId) == Some(t)
    ensures var r := Accept(m, appId, now).market.applications;
      forall i :: 0 <= i < |r| && r[i].jobId == t.app.jobId ==> r[i].status != Pending
  {
    AcceptApplications(m, appId, now, t);
    var r := Accept(m, appId, now).market.applications;
    var rivals := Rivals(m.applications, t.app.jobId, appId);
    forall i | 0 <= i < |r| && r[i].jobId == t.app.jobId
      ensures r[i].status != Pending
    {
      var a := m.applications[i];
      if a.status == Pending && a.id != appId {
        assert a in m.applications && a in rivals;
        assert a.id in AppIds(rivals);
      }
    }
  }

  /** The frame argument on plain sequences: only rivals and the target
      change, so other jobs' applications and settled ones stay. */
  lemma EffectFrame(apps: seq<Application>, r: seq<Application>, jobId: Id, appId: Id, now: Millis, k: nat)
    requires UniqueApplicationIds(apps)
    requires k < |apps| && apps[k].id == appId && apps[k].jobId == jobId
    requires |r| == |apps|
    requires forall i :: 0 <= i < |apps| ==>
      r[i] == AcceptEffect(apps[i], AppIds(Rivals(apps, jobId, appId)), appId, now)
    ensures forall i :: 0 <= i < |apps| && apps[i].jobId != jobId ==> r[i] == apps[i]
    ensures forall i :: 0 <= i < |apps| && apps[i].id != appId && apps[i].status != Pending ==> r[i] == apps[i]
  {
    forall i | 0 <= i < |apps| && apps[i].id in AppIds(Rivals(apps, jobId, appId))
      ensures apps[i].jobId == jobId && apps[i].status == Pending
    {
      RivalIdIsRival(apps, jobId, appId, i);
    }
    forall i | 0 <= i < |apps| && apps[i].id == appId
      ensures apps[i].jobId == jobId
    {
      assert !(i < k) && !(k < i);
    }
  }

  /** With unique application ids, accept touches only the applications of
      the accepted job, and among those leaves the non-pending ones alone. */
  lemma AcceptFrame(m: Market, appId: Id, now: Millis, t: Target)
    requires Lookup(m, appId) == Some(t)
    requires UniqueApplicationIds(m.applications)
    ensures var r := Accept(m, appId, now).market.applications;
      (forall i :: 0 <= i < |m.applications| && m.applications[i].jobId != t.app.jobId ==>
         r[i] == m.applications[i]) &&
      (forall i :: (0 <= i < |m.applications| && m.applications[i].id != appId &&
                    m.applications[i].status != Pending) ==> r[i] == m.applications[i])
  {
    var apps := m.applications;
    var k :| 0 <= k < |apps| && apps[k] == t.app;
    AcceptApplications(m, appId, now, t);
    EffectFrame(apps, Accept(m, appId, now).market.applications, t.app.jobId, appId, now, k);
  }

  predicate AcceptedFor(jobId: Id, a: Application) {
    a.jobId == jobId && a.status == Accepted
  }

  function AcceptedForJob(jobId: Id): Application -> bool {
    (a: Application) => AcceptedFor(jobId, a)
  }

  /** The counting argument behind a single hire: if only the target's id
      can become accepted and nothing was accepted before, exactly one
      application of the job is accepted afterwards. */
  lemma EffectHiresOne(apps: seq<Application>, r: seq<Application>, ids: seq<Id>, appId: Id,
                       now: Millis, k: nat)
    requires UniqueApplicationIds(apps) && appId !in ids
    requires k < |apps| && apps[k].id == appId
    requires |r| == |apps| && forall i :: 0 <= i < |apps| ==> r[i] == AcceptEffect(apps[i], ids, appId, now)
    requires forall i :: 0 <= i < |apps| ==> !AcceptedFor(apps[k].jobId, apps[i])
    ensures Count(r, AcceptedForJob(apps[k].jobId)) == 1
  {
    var jobId := apps[k].jobId;
    forall i | 0 <= i < |r| && i != k
      ensures !AcceptedForJob(jobId)(r[i])
    {
      assert apps[i].id != apps[k].id;
      assert !AcceptedFor(jobId, apps[i]);
    }
    assert r[k] == Respond(apps[k], Accepted, now);
    CountOne(r, AcceptedForJob(jobId), k);
  }

  /** If the job had no accepted application, it has exactly one afterwards:
      the one accepted. */
  lemma AcceptYieldsSingleHire(m: Market, appId: Id, now: Millis, t: Target)
    requires Lookup(m, appId) == Some(t)
    requires UniqueApplicationIds(m.applications)
    requires Count(m.applications, AcceptedForJob(t.app.jobId)) == 0
    ensures Count(Accept(m, appId, now).market.applications, AcceptedForJob(t.app.jobId)) == 1
  {
    var apps := m.applications;
    var k :| 0 <= k < |apps| && apps[k] == t.app;
    CountZeroNone(apps, AcceptedForJob(t.app.jobId));
    AcceptApplications(m, appId, now, t);
    EffectHiresOne(apps, Accept(m, appId, now).market.applications,
                   AppIds(Rivals(apps, t.app.jobId, appId)), appId, now, k);
  }

  /** Accept emits one "not selected" notice per rival, in order, and then
      exactly one "accepted" notice to the hired seeker. */
  lemma AcceptNotifications(m: Market, appId: Id, now: Millis, t: Target)
    requires Lookup(m, appId) == Some(t)
    ensures var e := Accept(m, appId, now).emitted;
      var rivals := Rivals(m.applications, t.app.jobId, appId);
      |e| == |rivals| + 1 &&
      (forall i :: 0 <= i < |rivals| ==>
         e[i].kind == ApplicationRejected && e[i].userId == rivals[i].seekerId && e[i].jobId == Some(t.job.id)) &&
      e[|rivals|].kind == ApplicationAccepted && e[|rivals|].userId == t.app.seekerId &&
      e[|rivals|].jobId == Some(t.job.id)
  {
  }

  // ---------------------------------------------------------------------
  // Reject
  // ---------------------------------------------------------------------

  /** `handleReject`: only the target application becomes `rejected`, the job
      stays as it is and the seeker gets one notice. A missing application
      or job changes nothing. */
  function Reject(m: Market, appId: Id, now: Millis): (s: Step)
    ensures Lookup(m, appId).None? ==> s == Step(m, [])
    ensures s.market.jobs == m.jobs && s.market.users == m.users && s.market.reviews == m.reviews
    ensures |s.market.applications| == |m.applications|
    ensures forall i :: 0 <= i < |m.applications| && m.applications[i].id != appId ==>
      s.market.applications[i] == m.applications[i]
    ensures Lookup(m, appId).Some? ==>
      (forall i :: 0 <= i < |m.applications| && m.applications[i].id == appId ==>
         s.market.applications[i] == Respond(m.applications[i], Rejected, now)) &&
      |s.emitted| == 1 && s.emitted[0].kind == ApplicationRejected &&
      s.emitted[0].userId == Lookup(m, appId).value.app.seekerId
  {
    match Lookup(m, appId)
    case None => Step(m, [])
    case Some(t) =>
      Step(m.(applications := UpdateApplication(m.applications, appId, ApplicationPatch(Some(Rejected), Some(now)))),
           [RejectedNotice(t.app.seekerId, t.job)])
  }

  // ---------------------------------------------------------------------
  // What the page shows
  // ---------------------------------------------------------------------

  /** The applications listed: those to a job the signed-in poster posted
      (nothing when signed out). */
  function RelevantApplications(m: Market, user: Option<AuthUser>): (r: seq<Application>)
    ensures forall a :: a in r <==>
      (a in m.applications && user.Some? &&
       exists j :: j in m.jobs && j.posterId == user.value.id && j.id == a.jobId)
    ensures IsSubsequence(r, m.applications)
  {
    var myJobs := if user.Some? then GetJobsByPosterId(m.jobs, user.value.id) else [];
    var myJobIds := JobIds(myJobs);
    Filter(m.applications, (a: Application) => a.jobId in myJobIds)
  }

  datatype Action = AcceptAction | RejectAction

  /** Accept and Reject are offered for pending applications only. */
  function Actions(a: Application): (r: set<Action>)
    ensures AcceptAction in r <==> a.status == Pending
    ensures RejectAction in r <==> a.status == Pending
  {
    if a.status == Pending then {AcceptAction, RejectAction} else {}
  }

  /** The "Hired for this job" banner marks the accepted application. */
  predicate ShowsHired(a: Application) {
    a.status == Accepted
  }

  /** After an accept, no card of that job offers an action any more. */
  lemma AcceptRetiresActions(m: Market, appId: Id, now: Millis, t: Target)
    requires Lookup(m, appId) == Some(t)
    ensures var r := Accept(m, appId, now).market.applications;
      forall i :: 0 <= i < |r| && r[i].jobId == t.app.jobId ==> Actions(r[i]) == {}
  {
    AcceptLeavesNoPending(m, appId, now, t);
  }
}

=== FILE: auth.dfy ===
/** The auth context: the signed-in identity, its transitions, the role
    check and the route guard. */
module Auth {
  import opened Wrappers
  import opened Domain

  datatype AuthState = AuthState(user: Option<AuthUser>, isAuthenticated: bool, isLoading: bool)

  /** The state before the first check: nobody, still loading. */
  const Start := AuthState(None, false, true)

  /** `isAuthenticated` says whether a user is present. */
  predicate Consistent(s: AuthState) {
    s.isAuthenticated <==> s.user.Some?
  }

  /** `setUser`: the given identity (or none), loading finished. */
  function SetUser(s: AuthState, u: Option<AuthUser>): (r: AuthState)
    ensures Consistent(r) && !r.isLoading && r.user == u
  {
    AuthState(u, u.Some?, false)
  }

  /** `checkAuth`: there is no server check, loading just ends. */
  function CheckAuth(s: AuthState): (r: AuthState)
    ensures r.user == s.user && r.isAuthenticated == s.isAuthenticated && !r.isLoading
    ensures Consistent(s) ==> Consistent(r)
  {
    s.(isLoading := false)
  }

  /** `logout`: the identity is dropped and the login page opened; from then
      on every guarded page redirects there. */
  function Logout(s: AuthState): (r: (AuthState, string))
    ensures r.0.user.None? && !r.0.isAuthenticated && !r.0.isLoading && Consistent(r.0)
    ensures r.1 == "/auth/login"
    ensures forall allowed :: RequireAuth(r.0, allowed) == Some(r.1)
  {
    (SetUser(s, None), "/auth/login")
  }

  /** The argument of `hasRole`: one role or a list of roles. */
  datatype RoleSpec = One(role: Role) | Many(roles: seq<Role>)

  /** `hasRole`: the signed-in user's role is the one given, or among those
      given; false when nobody is signed in. */
  predicate HasRole(s: AuthState, spec: RoleSpec) {
    s.user.Some? &&
    match spec
    case One(role) => s.user.value.role == role
    case Many(roles) => s.user.value.role in roles
  }

  /** The redirect `useRequireAuth` performs, if any. A role list that is
      present counts even when empty. */
  function RequireAuth(s: AuthState, allowed: Option<RoleSpec>): (r: Option<string>)
    ensures s.isLoading ==> r.None?
    ensures !s.isLoading && !s.isAuthenticated ==> r == Some("/auth/login")
    ensures !s.isLoading && s.isAuthenticated && s.user.Some? && allowed.Some? && !HasRole(s, allowed.value) ==>
      r == Some(DashboardPath(s.user.value.role))
  {
    if s.isLoading then None
    else if !s.isAuthenticated then Some("/auth/login")
    else if allowed.Some? && !HasRole(s, allowed.value) then
      Some(if s.user.Some? && s.user.value.role == Poster then "/dashboard/poster" else "/dashboard/seeker")
    else None
  }

  /** The hook's `isAuthorized`. */
  predicate IsAuthorized(s: AuthState, allowed: Option<RoleSpec>) {
    allowed.None? || HasRole(s, allowed.value)
  }

  /** Once loaded, in a consistent state, the guard stays put exactly when
      someone is signed in and authorised. */
  lemma GuardMatchesAuthorized(s: AuthState, allowed: Option<RoleSpec>)
    requires Consistent(s) && !s.isLoading
    ensures RequireAuth(s, allowed).None? <==> s.user.Some? && IsAuthorized(s, allowed)
  {
  }

  /** An empty role list turns every signed-in user back to their own
      dashboard. */
  lemma EmptyRoleListRedirects(s: AuthState, u: AuthUser)
    requires s == SetUser(s, Some(u))
    ensures RequireAuth(s, Some(Many([]))) == Some(DashboardPath(u.role))
    ensures !IsAuthorized(s, Some(Many([])))
  {
  }
}

=== FILE: avatar.dfy ===
/** The avatar fallback: initials drawn from a name and a background colour
    picked from the name's character codes. */
module Avatar {
  import opened Wrappers
  import opened Text

  /** `s.split(/\s+/)`: the pieces between maximal whitespace runs (a
      leading or trailing run gives an empty first or last piece). */
  function Words(s: string): (r: seq<string>)
    ensures |r| >= 1
    ensures forall i :: 0 <= i < |r| ==> HasNoSpace(r[i])
    ensures r[0] <= s
    ensures |r| == 1 <==> HasNoSpace(s)
    ensures |r| == 1 ==> r[0] == s
    decreases |s|
  {
    if s == [] then [""]
    else if IsSpace(s[0]) then
      if |s| > 1 && IsSpace(s[1]) then Words(s[1..]) else [""] + Words(s[1..])
    else
      var rest := Words(s[1..]);
      [[s[0]] + rest[0]] + rest[1..]
  }

  /** The last piece of `w` is a suffix of `s`, preceded by whitespace
      when there is more than one piece. */
  predicate LastIsSuffix(s: string, w: seq<string>) {
    |w| >= 1 &&
    var last := w[|w| - 1];
    |last| <= |s| && last == s[|s| - |last|..] &&
    (|w| > 1 ==> |last| < |s| && IsSpace(s[|s| - |last| - 1]))
  }

  /** A leading space adds nothing to the end of the split. */
  lemma SpaceStep(s: string, w: seq<string>, w': seq<string>)
    requires s != [] && IsSpace(s[0])
    requires w == w' || w == [""] + w'
    requires LastIsSuffix(s[1..], w')
    requires |w'| == 1 ==> w'[0] == s[1..]
    ensures LastIsSuffix(s, w)
  {
    var last := w'[|w'| - 1];
    assert w[|w| - 1] == last;
    assert s[1..][|s| - 1 - |last|..] == s[|s| - |last|..];
    if |w'| > 1 {
      assert s[1..][|s| - 1 - |last| - 1] == s[|s| - |last| - 1];
    }
  }

  /** A leading non-space extends the first piece only. */
  lemma WordStep(s: string, w: seq<string>, w': seq<string>)
    requires s != [] && !IsSpace(s[0]) && |w'| >= 1
    requires w == [[s[0]] + w'[0]] + w'[1..]
    requires LastIsSuffix(s[1..], w')
    requires |w'| == 1 ==> w'[0] == s[1..]
    ensures LastIsSuffix(s, w)
  {
    var last := w'[|w'| - 1];
    if |w'| > 1 {
      assert w[|w| - 1] == last;
      assert s[1..][|s| - 1 - |last|..] == s[|s| - |last|..];
      assert s[1..][|s| - 1 - |last| - 1] == s[|s| - |last| - 1];
    } else {
      assert w == [[s[0]] + s[1..]];
      assert [s[0]] + s[1..] == s;
    }
  }

  /** The last piece is the run of non-space characters that ends `s`. */
  lemma {:induction false} WordsLast(s: string)
    ensures LastIsSuffix(s, Words(s))
    decreases |s|
  {
    if s == [] {
      assert Words(s) == [""];
    } else {
      WordsLast(s[1..]);
      var w, w' := Words(s), Words(s[1..]);
      if IsSpace(s[0]) {
        assert w == w' || w == [""] + w';
        SpaceStep(s, w, w');
      } else {
        assert w == [[s[0]] + w'[0]] + w'[1..];
        WordStep(s, w, w');
      }
    }
  }

  /** `getInitials`: "?" without a name; otherwise the upper-cased first
      letter of the first word, followed by that of the last word when the
      trimmed name has several. A name of spaces only gives "". */
  function Initials(name: Option<string>): (r: string)
    ensures |r| <= 2
    ensures name.None? || name.value == "" ==> r == "?"
    ensures name.Some? && name.value != "" && Trim(name.value) == "" ==> r == ""
    ensures name.Some? && Trim(name.value) != "" ==>
      |r| >= 1 && r[0] == UpperChar(Trim(name.value)[0]) &&
      (|r| == 1 <==> HasNoSpace(Trim(name.value)))
  {
    if name.None? || name.value == "" then "?" else WordInitials(Trim(name.value))
  }

  /** The initials of a trimmed name. With several words the second initial
      is the upper-cased character after the last whitespace. */
  function WordInitials(t: string): (r: string)
    requires t == [] || (!IsSpace(t[0]) && !IsSpace(t[|t| - 1]))
    ensures |r| <= 2
    ensures t == [] ==> r == []
    ensures t != [] ==> |r| >= 1 && r[0] == UpperChar(t[0]) && (|r| == 1 <==> HasNoSpace(t))
    ensures t != [] && !HasNoSpace(t) ==>
      exists k :: 0 <= k < |t| - 1 && IsSpace(t[k]) && HasNoSpace(t[k + 1..]) && r[1] == UpperChar(t[k + 1])
  {
    var parts := Words(t);
    WordsLast(t);
    if |parts| == 1 then Upper(FirstChar(parts[0]))
    else
      var last := parts[|parts| - 1];
      var k := |t| - |last| - 1;
      assert last != [] by {
        assert !IsSpace(t[|t| - 1]);
      }
      assert parts[0] != [] && parts[0][0] == t[0];
      var r := Upper(FirstChar(parts[0]) + FirstChar(last));
      assert r[1] == UpperChar(t[k + 1]);
      r
  }

  /** `charAt(0)`: the first character, or "" for the empty string. */
  function FirstChar(s: string): (r: string)
    ensures |r| <= 1 && r <= s && (s != [] ==> |r| == 1)
  {
    if s == [] then "" else [s[0]]
  }

  const Palette := ["bg-blue-500", "bg-emerald-500", "bg-violet-500", "bg-amber-500",
                    "bg-rose-500", "bg-cyan-500", "bg-indigo-500", "bg-pink-500"]

  /** The sum of the character codes. */
  function CodeSum(s: string): nat {
    if s == [] then 0 else CodeSum(s[..|s| - 1]) + s[|s| - 1] as nat
  }

  /** `getColorFromName`: the first colour without a name, otherwise the one
      indexed by the code sum modulo the palette size. */
  function ColorFor(name: Option<string>): (r: string)
    ensures r in Palette
    ensures name.None? || name.value == "" ==> r == Palette[0]
    ensures name.Some? && name.value != "" ==> r == Palette[CodeSum(name.value) % 8]
  {
    if name.None? || name.value == "" then Palette[0] else Palette[CodeSum(name.value) % 8]
  }

  lemma {:induction false} CodeSumAppend(a: string, b: string)
    ensures CodeSum(a + b) == CodeSum(a) + CodeSum(b)
    decreases |b|
  {
    if b != [] {
      CodeSumAppend(a, b[..|b| - 1]);
      assert (a + b)[..|a + b| - 1] == a + b[..|b| - 1];
    } else {
      assert a + b == a;
    }
  }

  /** The colour depends only on the sum of the character codes, so it does
      not change when the two halves of a name are swapped. */
  lemma ColorSwapInvariant(a: string, b: string)
    ensures ColorFor(Some(a + b)) == ColorFor(Some(b + a))
  {
    CodeSumAppend(a, b);
    CodeSumAppend(b, a);
    assert CodeSum(a + b) == CodeSum(b + a);
    assert |a + b| == |b + a|;
  }
}

=== FILE: dashboard_nav.dfy ===
/** The dashboard layout's sidebar: the links for each role and which one is
    highlighted for the current path. */
module DashboardNav {
  import opened Wrappers
  import opened Domain
  import Text

  datatype NavLink = NavLink(href: string, title: string, exact: bool)

  const SeekerLinks := [
    NavLink("/dashboard/seeker", "Browse Jobs", true),
    NavLink("/dashboard/seeker/applications", "Applications", false),
    NavLink("/dashboard/seeker/active", "Active Jobs", false)
  ]

  const PosterLinks := [
    NavLink("/dashboard/poster", "Post Job", true),
    NavLink("/dashboard/poster/listings", "My Listings", false),
    NavLink("/dashboard/poster/applicants", "Applicants", false)
  ]

  /** Seekers get the seeker links; everyone else, including a visitor with
      no identity, the poster links. */
  function LinksFor(user: Option<AuthUser>): (r: seq<NavLink>)
    ensures r == SeekerLinks <==> user.Some? && user.value.role == Seeker
    ensures r == PosterLinks <==> !(user.Some? && user.value.role == Seeker)
  {
    if user.Some? && user.value.role == Seeker then SeekerLinks else PosterLinks
  }

  /** The logo's target, chosen the same way. */
  function HomeFor(user: Option<AuthUser>): (r: string)
    ensures user.Some? ==> r == DashboardPath(user.value.role)
    ensures r == LinksFor(user)[0].href
  {
    if user.Some? && user.value.role == Seeker then "/dashboard/seeker" else "/dashboard/poster"
  }

  /** `isActive`: an exact link matches only its own path, the others any
      path that starts with their address. */
  predicate IsActive(path: string, link: NavLink) {
    if link.exact then path == link.href else Text.StartsWith(path, link.href)
  }

  /** At most one link of either sidebar is highlighted, whatever the path. */
  lemma AtMostOneActive(path: string, links: seq<NavLink>, i: nat, j: nat)
    requires links == SeekerLinks || links == PosterLinks
    requires i < j < |links|
    ensures !(IsActive(path, links[i]) && IsActive(path, links[j]))
  {
    if i == 0 {
      if path == links[0].href {
        assert |links[j].href| > |path|;
      }
    } else if links[1].href <= path {
      assert path[19] == links[1].href[19];
      assert links[2].href[19] != path[19];
    }
  }

  /** Each link is highlighted on its own page; the home link only there. */
  lemma OwnPageActive(links: seq<NavLink>, i: nat, path: string)
    requires links == SeekerLinks || links == PosterLinks
    requires i < |links|
    ensures IsActive(links[i].href, links[i])
    ensures IsActive(path, links[0]) <==> path == links[0].href
  {
  }
}

=== FILE: data_context.dfy ===
/** The client-side data context: cached collections, the query helpers the
    pages call, and the cache updates that accompany each store write. */
module DataContext {
  import opened Wrappers
  import opened Seqs
  import opened Domain
  import opened Ratings

  // ---------------------------------------------------------------------
  // Partial updates (`Partial<T>` objects merged with `{ ...x, ...updates }`)
  // ---------------------------------------------------------------------

  datatype UserPatch = UserPatch(
    username: Option<string>,
    profile: Option<Profile>,
    profileCompleted: Option<bool>)

  datatype ApplicationPatch = ApplicationPatch(
    status: Option<ApplicationStatus>,
    respondedAt: Option<Millis>)

  datatype JobPatch = JobPatch(
    status: Option<JobStatus>,
    assignedTo: Option<Id>,
    applicants: Option<seq<Id>>,
    completedAt: Option<Millis>)

  /** Shallow merge: every field present in the patch replaces the user's. */
  function MergeUser(u: User, p: UserPatch): User {
    u.(username := p.username.GetOr(u.username),
       profile := p.profile.GetOr(u.profile),
       profileCompleted := if p.profileCompleted.Some? then p.profileCompleted else u.profileCompleted)
  }

  function MergeApplication(a: Application, p: ApplicationPatch): Application {
    a.(status := p.status.GetOr(a.status),
       respondedAt := if p.respondedAt.Some? then p.respondedAt else a.respondedAt)
  }

  function MergeJob(j: Job, p: JobPatch): Job {
    j.(status := p.status.GetOr(j.status),
       assignedTo := if p.assignedTo.Some? then p.assignedTo else j.assignedTo,
       applicants := if p.applicants.Some? then p.applicants else j.applicants,
       completedAt := if p.completedAt.Some? then p.completedAt else j.completedAt)
  }

  /** `updateUser`: the cached users whose id matches are shallow-merged with
      the patch; every other user and the length of the list stay as they were. */
  function UpdateUser(users: seq<User>, id: Id, patch: UserPatch): (r: seq<User>)
    ensures |r| == |users|
    ensures forall i :: 0 <= i < |users| && users[i].id == id ==> r[i] == MergeUser(users[i], patch)
    ensures forall i :: 0 <= i < |users| && users[i].id != id ==> r[i] == users[i]
  {
    MapWhere(users, (u: User) => u.id == id, (u: User) => MergeUser(u, patch))
  }

  /** Applying the same user patch twice is the same as applying it once, and
      no user changes id. */
  lemma UpdateUserIdempotent(users: seq<User>, id: Id, patch: UserPatch)
    ensures UpdateUser(UpdateUser(users, id, patch), id, patch) == UpdateUser(users, id, patch)
    ensures forall i :: 0 <= i < |users| ==> UpdateUser(users, id, patch)[i].id == users[i].id
  {
    var once := UpdateUser(users, id, patch);
    var twice := UpdateUser(once, id, patch);
    assert forall i :: 0 <= i < |users| ==> twice[i] == once[i];
  }

  /** `updateApplication`: the same merge, on the applications cache. */
  function UpdateApplication(apps: seq<Application>, id: Id, patch: ApplicationPatch): (r: seq<Application>)
    ensures |r| == |apps|
    ensures forall i :: 0 <= i < |apps| && apps[i].id == id ==> r[i] == MergeApplication(apps[i], patch)
    ensures forall i :: 0 <= i < |apps| && apps[i].id != id ==> r[i] == apps[i]
  {
    MapWhere(apps, (a: Application) => a.id == id, (a: Application) => MergeApplication(a, patch))
  }

  /** `updateJob` (the write goes to the store; the jobs cache follows it). */
  function UpdateJob(jobs: seq<Job>, id: Id, patch: JobPatch): (r: seq<Job>)
    ensures |r| == |jobs|
    ensures forall i :: 0 <= i < |jobs| && jobs[i].id == id ==> r[i] == MergeJob(jobs[i], patch)
    ensures forall i :: 0 <= i < |jobs| && jobs[i].id != id ==> r[i] == jobs[i]
  {
    MapWhere(jobs, (j: Job) => j.id == id, (j: Job) => MergeJob(j, patch))
  }

  /** `deleteJob`: the documents with that id disappear, the rest stay in order. */
  function DeleteJob(jobs: seq<Job>, id: Id): (r: seq<Job>)
    ensures forall j :: j in r <==> j in jobs && j.id != id
    ensures IsSubsequence(r, jobs)
  {
    Filter(jobs, (j: Job) => j.id != id)
  }

  // ---------------------------------------------------------------------
  // Lookups and queries
  // ---------------------------------------------------------------------

  /** `getUserById`: the cached user with that id, or `undefined` (the
      background fetch that later fills the cache is not modelled). */
  function GetUserById(users: seq<User>, id: Id): (r: Option<User>)
    ensures r.Some? ==> r.value in users && r.value.id == id
    ensures r.None? <==> forall i :: 0 <= i < |users| ==> users[i].id != id
  {
    Find(users, (u: User) => u.id == id)
  }

  function GetJobById(jobs: seq<Job>, id: Id): (r: Option<Job>)
    ensures r.Some? ==> r.value in jobs && r.value.id == id
    ensures r.None? <==> forall i :: 0 <= i < |jobs| ==> jobs[i].id != id
  {
    Find(jobs, (j: Job) => j.id == id)
  }

  /** `find` by id: with unique ids the job found is the one at that index. */
  lemma GetJobByIdUnique(jobs: seq<Job>, k: nat)
    requires UniqueJobIds(jobs) && k < |jobs|
    ensures GetJobById(jobs, jobs[k].id) == Some(jobs[k])
  {
    var r := GetJobById(jobs, jobs[k].id);
    var i :| 0 <= i < |jobs| && jobs[i] == r.value && jobs[i].id == jobs[k].id;
  }

  /** With unique ids the user found is the one at that index. */
  lemma GetUserByIdUnique(users: seq<User>, k: nat)
    requires UniqueUserIds(users) && k < |users|
    ensures GetUserById(users, users[k].id) == Some(users[k])
  {
    var r := GetUserById(users, users[k].id);
    var i :| 0 <= i < |users| && users[i] == r.value && users[i].id == users[k].id;
  }

  function GetApplicationById(apps: seq<Application>, id: Id): (r: Option<Application>)
    ensures r.Some? ==> r.value in apps && r.value.id == id
    ensures r.None? <==> forall i :: 0 <= i < |apps| ==> apps[i].id != id
  {
    Find(apps, (a: Application) => a.id == id)
  }

  function GetJobsByPosterId(jobs: seq<Job>, posterId: Id): (r: seq<Job>)
    ensures forall j :: j in r <==> j in jobs && j.posterId == posterId
    ensures IsSubsequence(r, jobs)
  {
    Filter(jobs, (j: Job) => j.posterId == posterId)
  }

  function GetOpenJobs(jobs: seq<Job>): (r: seq<Job>)
    ensures forall j :: j in r <==> j in jobs && j.status == Open
    ensures IsSubsequence(r, jobs)
  {
    Filter(jobs, (j: Job) => j.status == Open)
  }

  function GetApplicationsBySeekerId(apps: seq<Application>, seekerId: Id): (r: seq<Application>)
    ensures forall a :: a in r <==> a in apps && a.seekerId == seekerId
    ensures IsSubsequence(r, apps)
  {
    Filter(apps, (a: Application) => a.seekerId == seekerId)
  }

  function ForJob(jobId: Id): Application -> bool {
    (a: Application) => a.jobId == jobId
  }

  function GetApplicationsByJobId(apps: seq<Application>, jobId: Id): (r: seq<Application>)
    ensures forall a :: a in r <==> a in apps && a.jobId == jobId
    ensures IsSubsequence(r, apps)
  {
    Filter(apps, ForJob(jobId))
  }

  /** The ids of some jobs (`jobs.map(j => j._id)`). */
  function JobIds(jobs: seq<Job>): (r: seq<Id>)
    ensures forall id :: id in r <==> exists j :: j in jobs && j.id == id
  {
    if jobs == [] then [] else [jobs[0].id] + JobIds(jobs[1..])
  }

  /** The pending applications to any job of the poster, in cache order. */
  function GetPendingApplicationsForPoster(jobs: seq<Job>, apps: seq<Application>, posterId: Id): (r: seq<Application>)
    ensures forall a :: a in r <==>
      a in apps && a.status == Pending && exists j :: j in jobs && j.posterId == posterId && j.id == a.jobId
    ensures IsSubsequence(r, apps)
  {
    var ids := JobIds(GetJobsByPosterId(jobs, posterId));
    Filter(apps, (a: Application) => a.jobId in ids && a.status == Pending)
  }

  function GetReviewsByRevieweeId(reviews: seq<Review>, revieweeId: Id): (r: seq<Review>)
    ensures forall x :: x in r <==> x in reviews && x.revieweeId == revieweeId
    ensures IsSubsequence(r, reviews)
  {
    Filter(reviews, (x: Review) => x.revieweeId == revieweeId)
  }

  function GetReviewsByJobId(reviews: seq<Review>, jobId: Id): (r: seq<Review>)
    ensures forall x :: x in r <==> x in reviews && x.jobId == jobId
    ensures IsSubsequence(r, reviews)
  {
    Filter(reviews, (x: Review) => x.jobId == jobId)
  }

  function ForUser(userId: Id): Notification -> bool {
    (n: Notification) => n.userId == userId
  }

  function UnreadForUser(userId: Id): Notification -> bool {
    (n: Notification) => n.userId == userId && !n.read
  }

  predicate IsUnread(n: Notification) {
    !n.read
  }

  function GetNotificationsByUserId(notes: seq<Notification>, userId: Id): (r: seq<Notification>)
    ensures forall n :: n in r <==> n in notes && n.userId == userId
    ensures IsSubsequence(r, notes)
  {
    Filter(notes, ForUser(userId))
  }

  /** `getUnreadCount`: never more than the user's notifications. */
  function GetUnreadCount(notes: seq<Notification>, userId: Id): (r: nat)
    ensures r <= |GetNotificationsByUserId(notes, userId)|
  {
    CountMonotone(notes, UnreadForUser(userId), ForUser(userId));
    Count(notes, UnreadForUser(userId))
  }

  /** The unread count is the number of unread entries among the user's own
      notifications. */
  lemma UnreadCountIsUnreadOfUser(notes: seq<Notification>, userId: Id)
    ensures GetUnreadCount(notes, userId) == Count(GetNotificationsByUserId(notes, userId), IsUnread)
  {
    FilterFilter(notes, ForUser(userId), IsUnread, UnreadForUser(userId));
  }

  // ---------------------------------------------------------------------
  // Inserts
  // ---------------------------------------------------------------------

  /** An application before the store has given it an id. */
  datatype ApplicationDraft = ApplicationDraft(
    jobId: Id,
    seekerId: Id,
    message: Option<string>,
    status: ApplicationStatus,
    createdAt: Millis)

  function WithId(a: ApplicationDraft, id: Id): Application {
    Application(id, a.jobId, a.seekerId, a.message, a.status, a.createdAt, None)
  }

  /** `addApplication`: the new application is appended to the cache and the
      seeker is appended to the applicants of the job (an absent list counts
      as empty); `newId` is the id the store allocated. */
  function AddApplication(m: Market, a: ApplicationDraft, newId: Id): (r: Market)
    ensures r.applications == m.applications + [WithId(a, newId)]
    ensures r.users == m.users && r.reviews == m.reviews
    ensures |r.jobs| == |m.jobs|
    ensures forall i :: 0 <= i < |m.jobs| && m.jobs[i].id != a.jobId ==> r.jobs[i] == m.jobs[i]
  {
    var prior := match GetJobById(m.jobs, a.jobId)
      case Some(j) => j.applicants.GetOr([])
      case None => [];
    m.(applications := m.applications + [WithId(a, newId)],
       jobs := UpdateJob(m.jobs, a.jobId, JobPatch(None, None, Some(prior + [a.seekerId]), None)))
  }

  /** With unique job ids the seeker lands at the end of that job's
      applicants, every earlier applicant kept and no duplicate check made. */
  lemma AddApplicationAppendsApplicant(m: Market, a: ApplicationDraft, newId: Id, k: nat)
    requires UniqueJobIds(m.jobs) && k < |m.jobs| && m.jobs[k].id == a.jobId
    ensures AddApplication(m, a, newId).jobs[k] ==
      m.jobs[k].(applicants := Some(m.jobs[k].applicants.GetOr([]) + [a.seekerId]))
  {
    GetJobByIdUnique(m.jobs, k);
  }

  function WithReviewId(d: ReviewDraft, id: Id): Review {
    Review(id, d.jobId, d.reviewerId, d.revieweeId, d.rating, Some(d.comment), d.createdAt)
  }

  /** The profile rating `addReview` computes after inserting `d`: the mean of
      every rating the reviewee has received, the new one included, rounded
      to one decimal. */
  function AggregateRating(reviews: seq<Review>, revieweeId: Id): (r: Option<real>)
    ensures r.None? <==> GetReviewsByRevieweeId(reviews, revieweeId) == []
    ensures r.Some? ==>
      var received := GetReviewsByRevieweeId(reviews, revieweeId);
      var mean := Sum(received) as real / |received| as real;
      (r.value * 10.0).Floor as real == r.value * 10.0 && mean - 0.05 < r.value <= mean + 0.05
  {
    var received := GetReviewsByRevieweeId(reviews, revieweeId);
    if received == [] then None else Some(RoundToTenth(Mean(received)))
  }

  /** `addReview`, with the rating written only into `profile.rating` (see
      `AddReviewAsWritten` for what the store write does to the other
      profile fields). */
  function AddReview(m: Market, d: ReviewDraft, newId: Id): (r: Market)
    ensures r.reviews == m.reviews + [WithReviewId(d, newId)]
    ensures r.jobs == m.jobs && r.applications == m.applications
    ensures |r.users| == |m.users|
    ensures forall i :: 0 <= i < |m.users| && m.users[i].id != d.revieweeId ==> r.users[i] == m.users[i]
    ensures forall i :: 0 <= i < |m.users| && m.users[i].id == d.revieweeId ==>
      r.users[i] == m.users[i].(profile := m.users[i].profile.(rating := AggregateRating(r.reviews, d.revieweeId)))
  {
    var reviews := m.reviews + [WithReviewId(d, newId)];
    var rating := AggregateRating(reviews, d.revieweeId);
    m.(reviews := reviews,
       users := MapWhere(m.users, (u: User) => u.id == d.revieweeId, (u: User) => u.(profile := u.profile.(rating := rating))))
  }

  /** The review just inserted is among the reviewee's reviews, so a rating is
      always written; with every rating in 1..5 it lies in [1, 5]. */
  lemma AddReviewRatingBounds(m: Market, d: ReviewDraft, newId: Id)
    requires RatingsWithin(GetReviewsByRevieweeId(m.reviews, d.revieweeId), 1, 5)
    requires 1 <= d.rating <= 5
    ensures AggregateRating(AddReview(m, d, newId).reviews, d.revieweeId).Some?
    ensures 1.0 <= AggregateRating(AddReview(m, d, newId).reviews, d.revieweeId).value <= 5.0
  {
    var reviews := m.reviews + [WithReviewId(d, newId)];
    var review := WithReviewId(d, newId);
    assert reviews[|m.reviews|] == review;
    var received := GetReviewsByRevieweeId(reviews, d.revieweeId);
    assert review in received;
    var before := GetReviewsByRevieweeId(m.reviews, d.revieweeId);
    forall i | 0 <= i < |received|
      ensures 1 <= received[i].rating <= 5
    {
      var x := received[i];
      assert x in reviews;
      if x != review {
        assert x in m.reviews;
        assert x in before;
        var k :| 0 <= k < |before| && before[k] == x;
      }
    }
    MeanWithin(received, 1, 5);
    RoundToTenthWithin(Mean(received), 1, 5);
  }

  /** `addReview` as the store executes it: `updateDoc` with a nested
      `profile: { rating }` object replaces the whole profile map, so the
      reviewee keeps nothing of the profile but the rating. */
  function AddReviewAsWritten(m: Market, d: ReviewDraft, newId: Id): (r: Market)
    ensures r.reviews == m.reviews + [WithReviewId(d, newId)]
    ensures |r.users| == |m.users|
    ensures forall i :: 0 <= i < |m.users| && m.users[i].id == d.revieweeId ==>
      r.users[i].profile == EmptyProfile.(rating := AggregateRating(r.reviews, d.revieweeId))
  {
    var reviews := m.reviews + [WithReviewId(d, newId)];
    var rating := AggregateRating(reviews, d.revieweeId);
    m.(reviews := reviews,
       users := MapWhere(m.users, (u: User) => u.id == d.revieweeId, (u: User) => u.(profile := EmptyProfile.(rating := rating))))
  }

  /** A reviewee with a bio loses it under the write as made, but keeps it
      under the rating-only update. */
  lemma AddReviewAsWrittenLosesProfile()
    ensures var u := User("s1", "ana", "ana@example.com", Seeker, EmptyProfile.(bio := Some("Gardener")), None, 0);
            var m := Market([u], [], [], []);
            var d := ReviewDraft("j1", "p1", "s1", 5, "", 1);
            AddReviewAsWritten(m, d, "r1").users[0].profile.bio == None &&
            AddReview(m, d, "r1").users[0].profile.bio == Some("Gardener")
  {
    var u := User("s1", "ana", "ana@example.com", Seeker, EmptyProfile.(bio := Some("Gardener")), None, 0);
    var m := Market([u], [], [], []);
    var d := ReviewDraft("j1", "p1", "s1", 5, "", 1);
    assert m.users[0].id == d.revieweeId;
  }

  /** The corrected update changes nothing of the reviewee but the rating. */
  lemma AddReviewKeepsProfile(m: Market, d: ReviewDraft, newId: Id, i: nat)
    requires i < |m.users|
    ensures var u := AddReview(m, d, newId).users[i];
      u.profile.(rating := m.users[i].profile.rating) == m.users[i].profile &&
      u.(profile := m.users[i].profile) == m.users[i]
  {
  }
}

=== FILE: domain.dfy ===
/** The records of the marketplace: users with profiles, jobs, applications,
    reviews and notifications, as stored in the document database and
    mirrored in the client cache. Document ids are strings and timestamps
    are milliseconds since the epoch. */
module Domain {
  import opened Wrappers

  type Id = string
  type Millis = int

  datatype Role = Seeker | Poster

  datatype JobStatus = Open | InProgress | Completed | Cancelled

  datatype JobCategory =
    Repairs | Gardening | Tutoring | Delivery | Errands | Cleaning | Moving | Other

  /** The category's name as the select box submits it. */
  function CategoryName(c: JobCategory): string {
    match c
    case Repairs => "Repairs"
    case Gardening => "Gardening"
    case Tutoring => "Tutoring"
    case Delivery => "Delivery"
    case Errands => "Errands"
    case Cleaning => "Cleaning"
    case Moving => "Moving"
    case Other => "Other"
  }

  datatype Job = Job(
    id: Id,
    posterId: Id,
    title: string,
    description: string,
    category: JobCategory,
    location: string,
    rate: int,
    status: JobStatus,
    assignedTo: Option<Id>,
    applicants: Option<seq<Id>>,
    createdAt: Millis,
    completedAt: Option<Millis>)

  datatype ApplicationStatus = Pending | Accepted | Rejected | Withdrawn

  datatype Application = Application(
    id: Id,
    jobId: Id,
    seekerId: Id,
    message: Option<string>,
    status: ApplicationStatus,
    createdAt: Millis,
    respondedAt: Option<Millis>)

  datatype Review = Review(
    id: Id,
    jobId: Id,
    reviewerId: Id,
    revieweeId: Id,
    rating: int,
    comment: Option<string>,
    createdAt: Millis)

  /** A review before the store has given it an id. */
  datatype ReviewDraft = ReviewDraft(
    jobId: Id,
    reviewerId: Id,
    revieweeId: Id,
    rating: int,
    comment: string,
    createdAt: Millis)

  /** Every field optional, as in the source; `avatar` is read and written by
      the profile pages although the interface does not declare it. The
      rating is a decimal with one fractional digit. */
  datatype Profile = Profile(
    bio: Option<string>,
    skills: Option<seq<string>>,
    hourlyRate: Option<int>,
    location: Option<string>,
    phone: Option<string>,
    photo: Option<string>,
    avatar: Option<string>,
    rating: Option<real>,
    completedJobs: Option<int>)

  const EmptyProfile := Profile(None, None, None, None, None, None, None, None, None)

  datatype User = User(
    id: Id,
    username: string,
    email: string,
    role: Role,
    profile: Profile,
    profileCompleted: Option<bool>,
    createdAt: Millis)

  /** The signed-in identity held by the auth context. */
  datatype AuthUser = AuthUser(id: Id, email: string, role: Role)

  /** A stored notification; the optional payload is always `{ jobId }`. */
  datatype Notification = Notification(
    id: Id,
    userId: Id,
    kind: string,
    title: string,
    message: string,
    read: bool,
    createdAt: Millis,
    jobId: Option<Id>)

  /** What a handler asks the store to create: no id, flag or timestamp yet. */
  datatype NotificationDraft = NotificationDraft(
    userId: Id,
    kind: string,
    title: string,
    message: string,
    jobId: Option<Id>)

  const ApplicationReceived := "application_received"
  const ApplicationAccepted := "application_accepted"
  const ApplicationRejected := "application_rejected"
  const JobCompleted := "job_completed"
  const ReviewReceived := "review_received"
  const Credentials := "credentials"

  /** The state the dashboard handlers act on: the users, jobs, applications
      and reviews collections (store and client cache taken as one). */
  datatype Market = Market(
    users: seq<User>,
    jobs: seq<Job>,
    applications: seq<Application>,
    reviews: seq<Review>)

  /** The outcome of one handler: the new state and the notifications it
      created, in creation order. */
  datatype Step = Step(market: Market, emitted: seq<NotificationDraft>)

  /** Document ids are unique within each collection. */
  predicate UniqueJobIds(jobs: seq<Job>) {
    forall i, j :: 0 <= i < j < |jobs| ==> jobs[i].id != jobs[j].id
  }

  predicate UniqueApplicationIds(apps: seq<Application>) {
    forall i, j :: 0 <= i < j < |apps| ==> apps[i].id != apps[j].id
  }

  predicate UniqueUserIds(users: seq<User>) {
    forall i, j :: 0 <= i < j < |users| ==> users[i].id != users[j].id
  }

  /** The dashboard home of each role. */
  function DashboardPath(role: Role): string {
    if role == Poster then "/dashboard/poster" else "/dashboard/seeker"
  }
}

=== FILE: job_service.dfy ===
/** The client for the public posts API used as a stand-in job source:
    `getJobs` maps each post to an open job, and `createJob` builds the job
    record from the input once the post is accepted. The HTTP exchange is a
    parameter: the reply's `ok` flag and its parsed body. */
module JobService {
  import opened Wrappers
  import opened Domain
  import Text

  /** A post as the API returns it. */
  datatype ApiPost = ApiPost(id: int, title: string, body: string)

  /** The parsed reply: the `ok` flag, `data.message` and `data.posts`. */
  datatype PostsReply = PostsReply(ok: bool, message: Option<string>, posts: Option<seq<ApiPost>>)

  /** The parsed reply to `posts/add`: the `ok` flag, `data.message` and `data.id`. */
  datatype AddReply = AddReply(ok: bool, message: Option<string>, id: int)

  datatype JobInput = JobInput(title: string, description: string, location: string, rate: int)

  const FetchFailed := "Failed to fetch jobs"
  const CreateFailed := "Failed to create job"

  /** JavaScript's `a % 80`: the remainder takes the sign of the dividend. */
  function JsRem80(a: int): (r: int)
    ensures a >= 0 ==> 0 <= r < 80
    ensures a < 0 ==> -80 < r <= 0
    ensures (a - r) % 80 == 0
  {
    if a >= 0 then a % 80 else -((-a) % 80)
  }

  /** `data.message || fallback`. */
  function ErrorText(message: Option<string>, fallback: string): (r: string)
    ensures message.Some? && message.value != "" ==> r == message.value
    ensures message.None? || message.value == "" ==> r == fallback
  {
    if message.Some? && message.value != "" then message.value
    else fallback
  }

  /** The job a post is shown as. */
  function MapPost(p: ApiPost, now: Millis): (r: Job)
    ensures r.posterId == "api" && r.title == p.title && r.description == p.body
    ensures r.category == Other && r.location == "Remote" && r.status == Open
    ensures r.applicants == Some([]) && r.assignedTo.None? && r.createdAt == now
    ensures p.id >= 0 ==> 20 <= r.rate <= 99
    ensures p.id < 0 ==> -59 <= r.rate <= 20
    ensures (r.rate - 20 - p.id) % 80 == 0
  {
    Job(Text.IntToString(p.id), "api", p.title, p.body, Other, "Remote",
        20 + JsRem80(p.id), Open, None, Some([]), now, None)
  }

  /** The job's id reads back as the post's id. */
  lemma MapPostIdRoundTrip(p: ApiPost, now: Millis)
    ensures Text.ParseNumber(MapPost(p, now).id) == Some(p.id)
  {
    Text.ParseNumberIntToString(p.id);
  }

  /** `getJobs`: a failed reply is an error carrying the API's message; an
      absent post list reads as empty. */
  function GetJobs(reply: PostsReply, now: Millis): (r: Result<seq<Job>>)
    ensures r.Failure? <==> !reply.ok
    ensures r.Failure? ==> r.message == ErrorText(reply.message, FetchFailed)
    ensures r.Success? && reply.posts.None? ==> r.value == []
    ensures r.Success? && reply.posts.Some? ==>
      |r.value| == |reply.posts.value| &&
      forall i :: 0 <= i < |r.value| ==> r.value[i] == MapPost(reply.posts.value[i], now)
  {
    if !reply.ok then Failure(ErrorText(reply.message, FetchFailed))
    else
      var posts := reply.posts.GetOr([]);
      Success(seq(|posts|, i requires 0 <= i < |posts| => MapPost(posts[i], now)))
  }

  /** Every job `getJobs` returns is open and its rate tracks its post's id. */
  lemma GetJobsAllOpen(reply: PostsReply, now: Millis)
    requires reply.ok && reply.posts.Some?
    requires forall i :: 0 <= i < |reply.posts.value| ==> reply.posts.value[i].id >= 0
    ensures forall j :: j in GetJobs(reply, now).value ==> j.status == Open && 20 <= j.rate <= 99
  {
    var r := GetJobs(reply, now).value;
    forall j | j in r
      ensures j.status == Open && 20 <= j.rate <= 99
    {
      var i :| 0 <= i < |r| && r[i] == j;
      assert j == MapPost(reply.posts.value[i], now);
    }
  }

  /** `createJob`: the job record built from the input once the API accepted
      the post; an empty location becomes "Remote". */
  function CreateJob(input: JobInput, reply: AddReply, now: Millis): (r: Result<Job>)
    ensures r.Failure? <==> !reply.ok
    ensures r.Failure? ==> r.message == ErrorText(reply.message, CreateFailed)
    ensures r.Success? ==>
      r.value.title == input.title && r.value.description == input.description &&
      r.value.rate == input.rate && r.value.status == Open && r.value.category == Other &&
      r.value.posterId == "api" && r.value.applicants == Some([]) && r.value.createdAt == now &&
      Text.ParseNumber(r.value.id) == Some(reply.id)
    ensures r.Success? && input.location != "" ==> r.value.location == input.location
    ensures r.Success? && input.location == "" ==> r.value.location == "Remote"
  {
    if !reply.ok then Failure(ErrorText(reply.message, CreateFailed))
    else
      Text.ParseNumberIntToString(reply.id);
      var location := if input.location != "" then input.location else "Remote";
      Success(Job(Text.IntToString(reply.id), "api", input.title, input.description, Other,
                  location, input.rate, Open, None, Some([]), now, None))
  }
}

=== FILE: jobs_api.dfy ===
/** The `/api/jobs` route: POST validates a job body and inserts it with
    defaults; GET builds a query filter from the search parameters, takes at
    most fifty matching documents and sorts them newest first. The database
    is a parameter: its contents, or the failure it raised. */
module JobsApi {
  import opened Wrappers
  import opened Seqs
  import Text

  type Millis = int

  /** A JSON value as the route reads it from the request body (`Undefined`
      for a field the body lacks). A JSON number is a finite decimal, so an
      exact rational stands for it. */
  datatype JsValue =
    | Undefined
    | Null
    | Bool(b: bool)
    | Num(n: real)
    | Str(s: string)
    | Arr(items: seq<JsValue>)
    | Obj(members: seq<(string, JsValue)>)

  /** JavaScript truthiness. */
  predicate Truthy(v: JsValue) {
    match v
    case Undefined => false
    case Null => false
    case Bool(b) => b
    case Num(n) => n != 0.0
    case Str(s) => s != ""
    case Arr(_) => true
    case Obj(_) => true
  }

  /** `v || fallback`. */
  function Or(v: JsValue, fallback: JsValue): (r: JsValue)
    ensures Truthy(v) ==> r == v
    ensures !Truthy(v) ==> r == fallback
  {
    if Truthy(v) then v else fallback
  }

  /** The fields of the request body the route destructures. */
  datatype JobBody = JobBody(
    title: JsValue,
    description: JsValue,
    location: JsValue,
    rate: JsValue,
    duration: JsValue,
    isUrgent: JsValue,
    category: JsValue)

  /** The document inserted into the `jobs` collection. */
  datatype JobDoc = JobDoc(
    title: JsValue,
    description: JsValue,
    location: JsValue,
    rate: JsValue,
    duration: JsValue,
    isUrgent: JsValue,
    category: JsValue,
    postedBy: JsValue,
    createdAt: Millis,
    status: string)

  /** A JSON response: status code, message and, for a created job, its id. */
  datatype Response = Response(status: int, message: string, jobId: Option<string>)

  const MissingFields := "Missing required fields"
  const Posted := "Job posted successfully"
  const PostError := "An error occurred while posting the job"
  const FetchError := "An error occurred while fetching jobs"
  const OpenStatus := "open"
  const FetchLimit := 50

  // ---------------------------------------------------------------------
  // POST
  // ---------------------------------------------------------------------

  /** A required field is missing when it is falsy: absent, null, empty or 0. */
  predicate MissingRequired(body: JobBody) {
    !Truthy(body.title) || !Truthy(body.description) || !Truthy(body.location) || !Truthy(body.rate)
  }

  /** The document built from a valid body at time `now`. */
  function NewJob(body: JobBody, now: Millis): (r: JobDoc)
    ensures r.title == body.title && r.description == body.description
    ensures r.location == body.location && r.rate == body.rate
    ensures Truthy(body.duration) ==> r.duration == body.duration
    ensures !Truthy(body.duration) ==> r.duration == Null
    ensures Truthy(body.isUrgent) ==> r.isUrgent == body.isUrgent
    ensures !Truthy(body.isUrgent) ==> r.isUrgent == Bool(false)
    ensures Truthy(body.category) ==> r.category == body.category
    ensures !Truthy(body.category) ==> r.category == Str("General")
    ensures r.postedBy == Null && r.status == OpenStatus && r.createdAt == now
  {
    JobDoc(body.title, body.description, body.location, body.rate,
           Or(body.duration, Null), Or(body.isUrgent, Bool(false)),
           Or(body.category, Str("General")), Null, now, OpenStatus)
  }

  /** The response together with the document written, if any. */
  datatype PostResult = PostResult(response: Response, stored: Option<JobDoc>)

  /** `POST`. `body` is None when the request body is not JSON; `inserted` is
      the id the database assigned, or the failure it raised. */
  function Post(body: Option<JobBody>, now: Millis, inserted: Result<string>): (r: PostResult)
    ensures r.response.status == 400 <==> body.Some? && MissingRequired(body.value)
    ensures r.response.status == 400 ==> r.response.message == MissingFields
    ensures r.response.status == 201 <==> body.Some? && !MissingRequired(body.value) && inserted.Success?
    ensures r.response.status == 201 ==>
      r.response.message == Posted && r.response.jobId == Some(inserted.value) &&
      r.stored == Some(NewJob(body.value, now))
    ensures r.response.status in {400, 201, 500}
    ensures r.response.status == 500 ==> r.response.message == PostError
    ensures r.stored.Some? <==> r.response.status == 201
  {
    if body.None? then PostResult(Response(500, PostError, None), None)
    else if MissingRequired(body.value) then PostResult(Response(400, MissingFields, None), None)
    else if inserted.Failure? then PostResult(Response(500, PostError, None), None)
    else PostResult(Response(201, Posted, Some(inserted.value)), Some(NewJob(body.value, now)))
  }

  /** A zero rate or an empty title is rejected like a missing one. */
  lemma FalsyFieldsRejected(body: JobBody, now: Millis, inserted: Result<string>)
    requires body.rate == Num(0.0) || body.title == Str("")
    ensures Post(Some(body), now, inserted).response.status == 400
    ensures Post(Some(body), now, inserted).stored == None
  {
  }

  // ---------------------------------------------------------------------
  // GET
  // ---------------------------------------------------------------------

  /** The query filter: optional category, location pattern and text search,
      and the status, which is always `open`. */
  datatype Query = Query(
    category: Option<string>,
    location: Option<string>,
    text: Option<string>,
    status: string)

  /** A search parameter counts when present and non-empty. */
  function Param(p: Option<string>): (r: Option<string>)
    ensures r.Some? <==> p.Some? && p.value != ""
    ensures r.Some? ==> r == p
  {
    if p.Some? && p.value != "" then p else None
  }

  /** The filter built from the `category`, `location` and `q` parameters. */
  function BuildFilter(category: Option<string>, location: Option<string>, q: Option<string>): (r: Query)
    ensures r.status == OpenStatus
    ensures r.category.Some? <==> category.Some? && category.value != ""
    ensures r.location.Some? <==> location.Some? && location.value != ""
    ensures r.text.Some? <==> q.Some? && q.value != ""
    ensures r.category.Some? ==> r.category == category
    ensures r.location.Some? ==> r.location == location
    ensures r.text.Some? ==> r.text == q
  {
    Query(Param(category), Param(location), Param(q), OpenStatus)
  }

  /** Whether a document matches the filter. The location pattern is read
      as a case-insensitive substring; the text index is the parameter
      `textHit`, since its definition lives in the database. */
  predicate Matches(f: Query, d: JobDoc, textHit: (JobDoc, string) -> bool) {
    d.status == f.status
    && (f.category.Some? ==> d.category == Str(f.category.value))
    && (f.location.Some? ==>
          d.location.Str? && Text.Contains(Text.Lower(d.location.s), Text.Lower(f.location.value)))
    && (f.text.Some? ==> textHit(d, f.text.value))
  }

  function MatchTest(f: Query, textHit: (JobDoc, string) -> bool): JobDoc -> bool {
    (d: JobDoc) => Matches(f, d, textHit)
  }

  function CreatedAt(d: JobDoc): int {
    d.createdAt
  }

  /** The first `n` elements, or all of them when there are fewer. */
  function Take<T>(s: seq<T>, n: nat): (r: seq<T>)
    ensures r <= s && |r| <= n
    ensures |s| <= n ==> r == s
    ensures |s| > n ==> |r| == n
  {
    if |s| <= n then s else s[..n]
  }

  /** The response of GET: the jobs with status 200, or an error message with 500. */
  datatype GetResponse = Jobs(jobs: seq<JobDoc>) | GetFailed(message: string)

  function Status(r: GetResponse): int {
    if r.Jobs? then 200 else 500
  }

  /** `GET`: the first fifty matching documents in stored order, sorted
      newest first, or the database's failure. */
  function Get(collection: Result<seq<JobDoc>>, category: Option<string>, location: Option<string>,
               q: Option<string>, textHit: (JobDoc, string) -> bool): (r: GetResponse)
    ensures collection.Failure? <==> r == GetFailed(FetchError)
    ensures r.Jobs? ==> |r.jobs| <= FetchLimit && SortedDesc(r.jobs, CreatedAt)
    ensures r.Jobs? ==> forall i :: 0 <= i < |r.jobs| ==>
      r.jobs[i] in collection.value && r.jobs[i].status == OpenStatus &&
      Matches(BuildFilter(category, location, q), r.jobs[i], textHit)
    ensures r.Jobs? ==>
      var matches := Filter(collection.value, MatchTest(BuildFilter(category, location, q), textHit));
      multiset(r.jobs) == multiset(Take(matches, FetchLimit)) &&
      |r.jobs| == (if |matches| <= FetchLimit then |matches| else FetchLimit)
  {
    if collection.Failure? then GetFailed(FetchError)
    else
      var f := BuildFilter(category, location, q);
      var found := Take(Filter(collection.value, MatchTest(f, textHit)), FetchLimit);
      var sorted := SortDesc(found, CreatedAt);
      forall i | 0 <= i < |sorted|
        ensures sorted[i] in found
      {
        assert sorted[i] in multiset(sorted);
      }
      Jobs(sorted)
  }

  /** When at most fifty documents match, GET returns every one of them, each
      as often as it is stored among the matches. */
  lemma GetReturnsAllMatches(collection: seq<JobDoc>, category: Option<string>, location: Option<string>,
                             q: Option<string>, textHit: (JobDoc, string) -> bool)
    requires |Filter(collection, MatchTest(BuildFilter(category, location, q), textHit))| <= FetchLimit
    ensures Get(Success(collection), category, location, q, textHit).Jobs?
    ensures multiset(Get(Success(collection), category, location, q, textHit).jobs) ==
            multiset(Filter(collection, MatchTest(BuildFilter(category, location, q), textHit)))
    ensures forall d :: d in collection && Matches(BuildFilter(category, location, q), d, textHit) ==>
            d in Get(Success(collection), category, location, q, textHit).jobs
  {
    var found := Filter(collection, MatchTest(BuildFilter(category, location, q), textHit));
    var r := Get(Success(collection), category, location, q, textHit).jobs;
    forall d | d in collection && Matches(BuildFilter(category, location, q), d, textHit)
      ensures d in r
    {
      assert d in found;
      assert d in multiset(found);
    }
  }
}

=== FILE: listings.dfy ===
/** The poster's My Listings page: the jobs it lists, the actions each card
    offers, and the delete, complete and review handlers. */
module Listings {
  import opened Wrappers
  import opened Seqs
  import opened Domain
  import opened DataContext
  import opened Reviewing
  import Applicants

  /** The jobs listed: the signed-in poster's own (nothing when signed out). */
  function MyJobs(m: Market, user: Option<AuthUser>): (r: seq<Job>)
    ensures forall j :: j in r <==> user.Some? && j in m.jobs && j.posterId == user.value.id
  {
    if user.Some? then GetJobsByPosterId(m.jobs, user.value.id) else []
  }

  predicate IsPending(a: Application) {
    a.status == Pending
  }

  function PendingOf(): Application -> bool {
    (a: Application) => IsPending(a)
  }

  /** The number of pending applications to a job. */
  function PendingCount(apps: seq<Application>, jobId: Id): (r: nat)
    ensures r == 0 <==> forall i :: 0 <= i < |apps| && apps[i].jobId == jobId ==> apps[i].status != Pending
  {
    var mine := GetApplicationsByJobId(apps, jobId);
    var n := Count(mine, PendingOf());
    assert n == 0 <==> forall i :: 0 <= i < |apps| && apps[i].jobId == jobId ==> apps[i].status != Pending by {
      if n == 0 {
        CountZeroNone(mine, PendingOf());
        forall i | 0 <= i < |apps| && apps[i].jobId == jobId
          ensures apps[i].status != Pending
        {
          assert apps[i] in mine;
        }
      } else {
        var k :| 0 <= k < |Filter(mine, PendingOf())| by {
          assert |Filter(mine, PendingOf())| > 0;
        }
        var a := Filter(mine, PendingOf())[k];
        assert a in mine && a.status == Pending;
        var i :| 0 <= i < |apps| && apps[i] == a;
      }
    }
    n
  }

  /** Counting is additive: appending an application raises the count by one
      exactly when it is a pending application to the job. With the empty
      case above this fixes the count for every list. */
  lemma PendingCountAppend(apps: seq<Application>, a: Application, jobId: Id)
    ensures PendingCount(apps + [a], jobId) ==
      PendingCount(apps, jobId) + (if a.jobId == jobId && a.status == Pending then 1 else 0)
  {
    FilterAppend(apps, [a], ForJob(jobId));
    var tail := Filter([a], ForJob(jobId));
    assert [a][1..] == [];
    FilterAppend(GetApplicationsByJobId(apps, jobId), tail, PendingOf());
    if a.jobId == jobId {
      assert tail == [a];
      assert [a][1..] == [];
    }
  }

  /** "N pending application(s)", shown on open jobs with a pending count. */
  function PendingBanner(job: Job, pending: nat): (r: Option<string>)
    ensures r.Some? <==> job.status == Open && pending > 0
  {
    if job.status == Open && pending > 0
    then Some(Text.NatToString(pending) + " pending application" + (if pending > 1 then "s" else ""))
    else None
  }

  datatype ListingAction = ViewApplicants | DeleteListing | MarkComplete | LeaveReview | ReviewSubmitted

  /** The buttons a listing card shows, given the job's pending count,
      whether its assignee is in the user cache, and whether the poster has
      reviewed it. */
  function CardActions(job: Job, pending: nat, assigneeKnown: bool, reviewed: bool): (r: set<ListingAction>)
    ensures DeleteListing in r <==> job.status == Open
    ensures ViewApplicants in r <==> job.status == Open && pending > 0
    ensures MarkComplete in r <==> job.status == InProgress
    ensures LeaveReview in r <==> job.status == Completed && assigneeKnown && !reviewed
    ensures ReviewSubmitted in r <==> job.status == Completed && reviewed
  {
    match job.status
    case Open => {DeleteListing} + (if pending > 0 then {ViewApplicants} else {})
    case InProgress => {MarkComplete}
    case Completed =>
      (if assigneeKnown && !reviewed then {LeaveReview} else {}) + (if reviewed then {ReviewSubmitted} else {})
    case Cancelled => {}
  }

  /** The card actions as the page derives them from the data. */
  function ActionsFor(m: Market, user: Option<AuthUser>, job: Job): (r: set<ListingAction>)
    ensures ViewApplicants in r <==> (job.status == Open &&
      exists i :: 0 <= i < |m.applications| && m.applications[i].jobId == job.id && m.applications[i].status == Pending)
    ensures LeaveReview in r <==> (job.status == Completed && job.assignedTo.Some? &&
      GetUserById(m.users, job.assignedTo.value).Some? && !HasReviewed(m.reviews, job.id, user))
    ensures ReviewSubmitted in r ==> job.status == Completed && user.Some?
    ensures ReviewSubmitted in r <==> job.status == Completed && HasReviewed(m.reviews, job.id, user)
    ensures DeleteListing in r <==> job.status == Open
    ensures MarkComplete in r <==> job.status == InProgress
  {
    var assigneeKnown := job.assignedTo.Some? && GetUserById(m.users, job.assignedTo.value).Some?;
    CardActions(job, PendingCount(m.applications, job.id), assigneeKnown, HasReviewed(m.reviews, job.id, user))
  }

  /** Once an applicant to a job is accepted, the job's card no longer
      offers to view applicants. */
  lemma AcceptHidesViewApplicants(m: Market, appId: Id, now: Millis, t: Applicants.Target, user: Option<AuthUser>, job: Job)
    requires Applicants.Lookup(m, appId) == Some(t)
    requires job.id == t.app.jobId
    ensures ViewApplicants !in ActionsFor(Applicants.Accept(m, appId, now).market, user, job)
  {
    Applicants.AcceptLeavesNoPending(m, appId, now, t);
  }

  // ---------------------------------------------------------------------
  // Handlers
  // ---------------------------------------------------------------------

  /** `handleDelete`: with a job chosen in the confirm dialog it is deleted;
      either way the dialog closes. */
  function Delete(m: Market, chosen: Option<Id>): (r: (Market, Option<Id>))
    ensures r.1 == None
    ensures chosen.None? ==> r.0 == m
    ensures r.0.users == m.users && r.0.applications == m.applications && r.0.reviews == m.reviews
    ensures chosen.Some? ==>
      (forall j :: j in r.0.jobs <==> j in m.jobs && j.id != chosen.value) && IsSubsequence(r.0.jobs, m.jobs)
  {
    match chosen
    case None => (m, None)
    case Some(id) => (m.(jobs := DeleteJob(m.jobs, id)), None)
  }

  function CompletedNotice(assignee: Id, job: Job): NotificationDraft {
    NotificationDraft(assignee, JobCompleted, "Job Marked Complete",
      "The client has marked \"" + job.title + "\" as completed. You can now leave a review.", Some(job.id))
  }

  /** `handleComplete`: only one of the poster's own jobs can be completed.
      It becomes `completed` with the completion time, its assignee (if any)
      is told, and the review form opens for it. */
  function Complete(m: Market, user: Option<AuthUser>, form: ReviewForm, jobId: Id, now: Millis): (o: Outcome)
    ensures GetJobById(MyJobs(m, user), jobId).None? ==> o == Outcome(m, form, [])
    ensures o.market.users == m.users && o.market.applications == m.applications && o.market.reviews == m.reviews
    ensures |o.market.jobs| == |m.jobs|
    ensures forall i :: 0 <= i < |m.jobs| && m.jobs[i].id != jobId ==> o.market.jobs[i] == m.jobs[i]
    ensures GetJobById(MyJobs(m, user), jobId).Some? ==>
      o.form == form.(reviewingJob := Some(jobId)) &&
      forall i :: 0 <= i < |m.jobs| && m.jobs[i].id == jobId ==>
        o.market.jobs[i] == m.jobs[i].(status := Completed, completedAt := Some(now))
  {
    match GetJobById(MyJobs(m, user), jobId)
    case None => Outcome(m, form, [])
    case Some(job) =>
      var jobs := UpdateJob(m.jobs, jobId, JobPatch(Some(Completed), None, None, Some(now)));
      var notices := if job.assignedTo.Some? then [CompletedNotice(job.assignedTo.value, job)] else [];
      Outcome(m.(jobs := jobs), form.(reviewingJob := Some(jobId)), notices)
  }

  /** Completion changes nothing unless the signed-in poster owns a job with
      that id; when it does, a notice goes out exactly when the job has an
      assignee, and only to that assignee. */
  lemma CompleteOwnJobsOnly(m: Market, user: Option<AuthUser>, form: ReviewForm, jobId: Id, now: Millis)
    ensures (user.None? || forall j :: j in m.jobs && j.id == jobId ==> j.posterId != user.value.id) ==>
      Complete(m, user, form, jobId, now) == Outcome(m, form, [])
    ensures var o := Complete(m, user, form, jobId, now);
      forall job :: GetJobById(MyJobs(m, user), jobId) == Some(job) ==>
        (|o.emitted| == 1 <==> job.assignedTo.Some?) && |o.emitted| <= 1 &&
        (forall k :: 0 <= k < |o.emitted| ==> Some(o.emitted[k].userId) == job.assignedTo && o.emitted[k].kind == JobCompleted)
  {
    if GetJobById(MyJobs(m, user), jobId).Some? {
      var job := GetJobById(MyJobs(m, user), jobId).value;
      assert job in m.jobs;
    }
  }

  /** A completed listing no longer offers Mark Complete or Delete. */
  lemma CompleteRetiresMarkComplete(m: Market, user: Option<AuthUser>, form: ReviewForm, jobId: Id, now: Millis, i: nat)
    requires GetJobById(MyJobs(m, user), jobId).Some?
    requires i < |m.jobs| && m.jobs[i].id == jobId
    ensures var o := Complete(m, user, form, jobId, now);
      MarkComplete !in ActionsFor(o.market, user, o.market.jobs[i]) &&
      DeleteListing !in ActionsFor(o.market, user, o.market.jobs[i])
  {
  }

  /** `handleSubmitReview` on the listings page. Without an open form or a
      signed-in user nothing happens; when the job is not among the poster's
      or has no assignee the form just closes; otherwise the assignee is
      reviewed, told so, and the form resets. */
  function SubmitReview(m: Market, user: Option<AuthUser>, form: ReviewForm, reviewId: Id, now: Millis): (o: Outcome)
    ensures form.reviewingJob.None? || user.None? ==> o == Outcome(m, form, [])
    ensures o.market.jobs == m.jobs && o.market.applications == m.applications
    ensures form.reviewingJob.Some? && user.Some? ==>
      var found := GetJobById(MyJobs(m, user), form.reviewingJob.value);
      if found.None? || found.value.assignedTo.None? then o == Outcome(m, form.(reviewingJob := None), [])
      else
        var job := found.value;
        o.form == ClosedForm &&
        o.market == AddReview(m, DraftFrom(form, job.id, user.value.id, job.assignedTo.value, now), reviewId) &&
        o.emitted == [ReviewNotice(job.assignedTo.value, form.rating, job)]
  {
    if form.reviewingJob.None? || user.None? then Outcome(m, form, [])
    else
      match GetJobById(MyJobs(m, user), form.reviewingJob.value)
      case None => Outcome(m, form.(reviewingJob := None), [])
      case Some(job) =>
        if job.assignedTo.None? then Outcome(m, form.(reviewingJob := None), [])
        else
          var d := DraftFrom(form, form.reviewingJob.value, user.value.id, job.assignedTo.value, now);
          Outcome(AddReview(m, d, reviewId), ClosedForm, [ReviewNotice(job.assignedTo.value, form.rating, job)])
  }

  /** After a successful review the card shows "Review Submitted" and no
      longer offers Leave Review; the review is addressed to the assignee. */
  lemma SubmitReviewRetiresLeaveReview(m: Market, user: AuthUser, form: ReviewForm, reviewId: Id, now: Millis, job: Job)
    requires form.reviewingJob.Some?
    requires GetJobById(MyJobs(m, Some(user)), form.reviewingJob.value) == Some(job)
    requires job.assignedTo.Some? && job.status == Completed
    ensures var o := SubmitReview(m, Some(user), form, reviewId, now);
      HasReviewed(o.market.reviews, job.id, Some(user)) &&
      LeaveReview !in ActionsFor(o.market, Some(user), job) &&
      ReviewSubmitted in ActionsFor(o.market, Some(user), job) &&
      o.market.reviews[|o.market.reviews| - 1].revieweeId == job.assignedTo.value
  {
    var d := DraftFrom(form, form.reviewingJob.value, user.id, job.assignedTo.value, now);
    AddReviewMarksReviewed(m, d, reviewId, user);
  }
}

=== FILE: notification_center.dfy ===
/** The notification bell: the unread badge, the dropdown's window of
    notifications, relative times, icons, and the click, mark-all and clear
    handlers. */
module NotificationCenter {
  import opened Wrappers
  import opened Seqs
  import opened Domain
  import opened DataContext
  import Store
  import Text

  /** How long ago a notification was created, in the largest whole unit
      the dropdown uses. */
  datatype Age = JustNow | MinutesAgo(n: int) | HoursAgo(n: int) | DaysAgo(n: int)

  const MinuteMs := 60000
  const HourMs := 3600000
  const DayMs := 86400000

  /** `formatTime`: elapsed milliseconds floored to minutes, hours and days
      (a time in the future reads as "Just now"). */
  function AgeOf(now: Millis, created: Millis): (r: Age)
    ensures r == JustNow <==> now - created < MinuteMs
    ensures r.MinutesAgo? ==> 1 <= r.n < 60 && r.n * MinuteMs <= now - created < (r.n + 1) * MinuteMs
    ensures r.HoursAgo? ==> 1 <= r.n < 24 && r.n * HourMs <= now - created < (r.n + 1) * HourMs
    ensures r.DaysAgo? ==> 1 <= r.n && r.n * DayMs <= now - created < (r.n + 1) * DayMs
  {
    var diff := now - created;
    var minutes := diff / MinuteMs;
    var hours := diff / HourMs;
    var days := diff / DayMs;
    if minutes < 1 then JustNow
    else if minutes < 60 then MinutesAgo(minutes)
    else if hours < 24 then HoursAgo(hours)
    else DaysAgo(days)
  }

  /** The text shown for an age. */
  function AgeText(a: Age): string {
    match a
    case JustNow => "Just now"
    case MinutesAgo(n) => Text.IntToString(n) + "m ago"
    case HoursAgo(n) => Text.IntToString(n) + "h ago"
    case DaysAgo(n) => Text.IntToString(n) + "d ago"
  }

  /** The badge: hidden without unread notifications, "9+" above nine,
      otherwise the count. */
  function Badge(unread: int): (r: Option<string>)
    ensures r.None? <==> unread <= 0
    ensures unread > 9 ==> r == Some("9+")
    ensures 0 < unread <= 9 ==> r.Some? && Text.AllDigits(r.value) && Text.ParseDigits(r.value) == unread
  {
    if unread <= 0 then None
    else if unread > 9 then Some("9+")
    else
      Text.ParseNatToString(unread);
      Some(Text.NatToString(unread))
  }

  /** The dropdown lists at most the first ten notifications. */
  function Window(notes: seq<Notification>): (r: seq<Notification>)
    ensures |r| <= 10 && r <= notes
    ensures |notes| <= 10 ==> r == notes
    ensures |notes| > 10 ==> |r| == 10
  {
    if |notes| > 10 then notes[..10] else notes
  }

  /** The count in "+N more notifications", shown only past ten. */
  function MoreCount(notes: seq<Notification>): (r: Option<nat>)
    ensures r.Some? <==> |notes| > 10
    ensures r.Some? ==> r.value + 10 == |notes|
  {
    if |notes| > 10 then Some(|notes| - 10) else None
  }

  /** The listed notifications and the "+N more" count add up to all of the
      user's notifications. */
  lemma WindowAccountsForAll(notes: seq<Notification>)
    ensures |Window(notes)| + MoreCount(notes).GetOr(0) == |notes|
    ensures notes == Window(notes) + notes[|Window(notes)|..]
  {
  }

  /** The key icon, used for credentials notices and for any unknown kind. */
  const KeyIcon := "\U{1F511}"

  /** The icon for a notification kind. */
  function Icon(kind: string): (r: string)
    ensures kind !in {ApplicationReceived, ApplicationAccepted, ApplicationRejected, JobCompleted, ReviewReceived} ==>
      r == KeyIcon
  {
    if kind == ApplicationReceived then "\U{1F4E9}"
    else if kind == ApplicationAccepted then "\U{1F389}"
    else if kind == ApplicationRejected then "\U{1F4CB}"
    else if kind == JobCompleted then "\U{2705}"
    else if kind == ReviewReceived then "\U{2B50}"
    else KeyIcon
  }

  // ---------------------------------------------------------------------
  // Handlers
  // ---------------------------------------------------------------------

  /** `handleNotificationClick`: only an unread notification is written. */
  function Click(notes: seq<Notification>, n: Notification): (r: Result<seq<Notification>>)
    ensures n.read ==> r == Success(notes)
    ensures !n.read ==> r == Store.MarkAsRead(notes, n.id)
  {
    if n.read then Success(notes) else Store.MarkAsRead(notes, n.id)
  }

  /** A click on any listed notification leaves it read. */
  lemma ClickLeavesRead(notes: seq<Notification>, k: nat)
    requires k < |notes|
    requires forall i, j :: 0 <= i < j < |notes| ==> notes[i].id != notes[j].id
    ensures Click(notes, notes[k]).Success? && Click(notes, notes[k]).value[k].read
  {
    Store.MarkAsReadChangesOne(notes, k);
  }

  /** `handleMarkAllRead`: for the signed-in user only, through the
      store's `markAllAsRead`. */
  function MarkAll(notes: seq<Notification>, user: Option<AuthUser>): (r: seq<Notification>)
    ensures user.None? ==> r == notes
    ensures user.Some? ==> r == Store.MarkAllAsRead(notes, user.value.id)
    ensures user.Some? ==> Badge(GetUnreadCount(r, user.value.id)).None?
  {
    if user.Some? then
      Store.MarkAllAsReadClearsUnread(notes, user.value.id);
      Store.MarkAllAsRead(notes, user.value.id)
    else notes
  }

  /** `handleClearAll`: only when signed in and something is listed. */
  function Clear(notes: seq<Notification>, user: Option<AuthUser>): (r: seq<Notification>)
    ensures user.None? ==> r == notes
    ensures user.Some? ==> forall n :: n in r <==> n in notes && n.userId != user.value.id
  {
    if user.Some? && |GetNotificationsByUserId(notes, user.value.id)| > 0
    then Store.ClearAll(notes, user.value.id) else notes
  }

  /** The guard on clearing changes nothing observable: signed in, the
      result is the store's `clearAll` either way. */
  lemma ClearGuardHarmless(notes: seq<Notification>, user: AuthUser)
    ensures Clear(notes, Some(user)) == Store.ClearAll(notes, user.id)
  {
    if |GetNotificationsByUserId(notes, user.id)| == 0 {
      CountZeroNone(notes, ForUser(user.id));
      FilterAll(notes, (n: Notification) => n.userId != user.id);
    }
  }
}

=== FILE: profile.dfy ===
/** The profile form shared by the profile page and the complete-profile
    wizard: input sanitising, the skill toggle, the location text and the
    profile object written on submit. */
module ProfileForm {
  import opened Wrappers
  import opened Seqs
  import opened Domain
  import opened DataContext
  import Text

  /** The fields both pages edit, all as text except the skill list. */
  datatype Fields = Fields(
    avatar: string,
    bio: string,
    barangay: string,
    street: string,
    phone: string,
    hourlyRate: string,
    skills: seq<string>)

  const BlankFields := Fields("", "", "", "", "", "", [])

  function DigitTest(): char -> bool {
    (c: char) => Text.IsDigit(c)
  }

  /** `value.replace(/\D/g, '')`: only the digits remain, in order. */
  function DigitsOnly(s: string): (r: string)
    ensures Text.AllDigits(r)
    ensures forall i :: 0 <= i < |s| && Text.IsDigit(s[i]) ==> s[i] in r
    ensures forall c :: multiset(r)[c] == if Text.IsDigit(c) then multiset(s)[c] else 0
    ensures IsSubsequence(r, s)
  {
    FilterMultiset(s, DigitTest());
    Filter(s, DigitTest())
  }

  /** Sanitising twice is sanitising once, and digits pass unchanged. */
  lemma DigitsOnlyIdempotent(s: string)
    ensures DigitsOnly(DigitsOnly(s)) == DigitsOnly(s)
    ensures Text.AllDigits(s) ==> DigitsOnly(s) == s
  {
    FilterAll(DigitsOnly(s), DigitTest());
    if Text.AllDigits(s) {
      FilterAll(s, DigitTest());
    }
  }

  function Other(skill: string): string -> bool {
    (x: string) => x != skill
  }

  /** `toggleSkill`: a selected skill is removed (every copy), an unselected
      one appended. */
  function ToggleSkill(skills: seq<string>, skill: string): (r: seq<string>)
    ensures skill in r <==> skill !in skills
    ensures forall x :: x != skill ==> (x in r <==> x in skills)
  {
    if skill in skills then Filter(skills, Other(skill)) else skills + [skill]
  }

  predicate NoDuplicates(s: seq<string>) {
    forall i, j :: 0 <= i < j < |s| ==> s[i] != s[j]
  }

  /** Toggling a skill that was not selected, then toggling it again,
      restores the list exactly. */
  lemma ToggleSkillTwice(skills: seq<string>, skill: string)
    requires skill !in skills
    ensures ToggleSkill(ToggleSkill(skills, skill), skill) == skills
  {
    FilterAppend(skills, [skill], Other(skill));
    FilterAll(skills, Other(skill));
  }

  /** The toggle never introduces a duplicate. */
  lemma {:induction false} ToggleSkillNoDuplicates(skills: seq<string>, skill: string)
    requires NoDuplicates(skills)
    ensures NoDuplicates(ToggleSkill(skills, skill))
  {
    if skill in skills {
      FilterNoDuplicates(skills, Other(skill));
    }
  }

  lemma {:induction false} FilterNoDuplicates(s: seq<string>, p: string -> bool)
    requires NoDuplicates(s)
    ensures NoDuplicates(Filter(s, p))
  {
    if s != [] {
      FilterNoDuplicates(s[1..], p);
      var rest := Filter(s[1..], p);
      assert s[0] !in s[1..];
      assert s[0] !in rest;
    }
  }

  // ---------------------------------------------------------------------
  // Location text
  // ---------------------------------------------------------------------

  /** The stored location: "street, barangay" when both are given,
      otherwise whichever is given, otherwise empty. */
  function ComposeLocation(street: string, barangay: string): (r: string)
    ensures street != "" && barangay != "" ==> r == street + ", " + barangay
    ensures street == "" || barangay == "" ==> r == barangay + street
  {
    if street != "" && barangay != "" then street + ", " + barangay
    else if barangay != "" then barangay
    else street
  }

  /** Reading the form back from a stored location: split at ", ", the
      barangay is the second piece or else the first, the street is the
      first piece only when there are two or more. A missing location reads
      as two empty fields. */
  function ParseLocation(location: Option<string>): (r: (string, string))
    ensures location.None? ==> r == ("", "")
    ensures location.Some? && Text.NoSeparator(location.value) ==> r == (location.value, "")
    ensures location.Some? ==> r.1 <= location.value
    ensures Text.NoSeparator(r.0) && Text.NoSeparator(r.1)
  {
    var parts := if location.Some? then Text.SplitOnComma(location.value) else ["", ""];
    assert location.Some? && Text.NoSeparator(location.value) ==> parts == [location.value] by {
      if location.Some? && Text.NoSeparator(location.value) {
        Text.SplitNoSeparator(location.value);
      }
    }
    var barangay := if |parts| > 1 && parts[1] != "" then parts[1] else parts[0];
    var street := if |parts| > 1 then parts[0] else "";
    (barangay, street)
  }

  /** Saving and reloading keeps the two fields exactly when neither holds
      ", " and the street is not given alone: a lone street comes back as
      the barangay, and a field holding the separator is split apart. */
  lemma LocationRoundTrip(street: string, barangay: string)
    ensures ParseLocation(Some(ComposeLocation(street, barangay))) == (barangay, street) <==>
      Text.NoSeparator(street) && Text.NoSeparator(barangay) && (street == "" || barangay != "")
  {
    if Text.NoSeparator(street) && Text.NoSeparator(barangay) {
      if street != "" && barangay != "" {
        Text.SplitJoined(street, barangay);
      } else if barangay != "" {
        Text.SplitNoSeparator(barangay);
      } else {
        Text.SplitNoSeparator(street);
      }
    }
  }

  /** A street typed as "a, b" with barangay "c" is stored as "a, b, c" and
      reloads as barangay "b" and street "a": the "c" is lost. */
  lemma StreetWithSeparatorSplits()
    ensures ParseLocation(Some(ComposeLocation("a, b", "c"))) == ("b", "a")
  {
    var s := ComposeLocation("a, b", "c");
    assert s == "a, b, c";
    Text.SplitJoined("b", "c");
    var tail := ", b, c";
    assert tail[..2] == ", " && tail[2..] == "b, c";
    assert Text.SplitOnComma(tail) == ["", "b", "c"];
    assert s[..2] != ", " by { assert s[1] == ','; assert s[0] == 'a'; }
    assert s[1..] == tail;
    var rest := Text.SplitOnComma(s[1..]);
    assert rest == ["", "b", "c"];
    assert [s[0]] + rest[0] == "a";
    assert Text.SplitOnComma(s) == ["a", "b", "c"];
  }

  // ---------------------------------------------------------------------
  // Loading and saving
  // ---------------------------------------------------------------------

  /** The form filled from a stored profile (`x || ''` for each text). */
  function LoadFields(p: Profile): (f: Fields)
    ensures (f.barangay, f.street) == ParseLocation(p.location)
    ensures p.hourlyRate.None? <==> f.hourlyRate == ""
    ensures f.skills == p.skills.GetOr([])
  {
    var loc := ParseLocation(p.location);
    Fields(p.avatar.GetOr(""), p.bio.GetOr(""), loc.0, loc.1, p.phone.GetOr(""),
      if p.hourlyRate.Some? then Text.IntToString(p.hourlyRate.value) else "",
      p.skills.GetOr([]))
  }

  /** The profile object written on submit: the current profile (if cached)
      with the form's fields laid over it; the rate is replaced only when
      its field is not empty. */
  function SaveProfile(current: Option<User>, f: Fields): (p: Profile)
    ensures current.Some? ==>
      p.rating == current.value.profile.rating &&
      p.completedJobs == current.value.profile.completedJobs &&
      p.photo == current.value.profile.photo
    ensures p.location == Some(ComposeLocation(f.street, f.barangay))
    ensures p.skills == Some(f.skills)
    ensures f.hourlyRate == "" ==> p.hourlyRate == (if current.Some? then current.value.profile.hourlyRate else None)
    ensures f.hourlyRate != "" ==> p.hourlyRate == Text.ParseNumber(f.hourlyRate)
  {
    var base := if current.Some? then current.value.profile else EmptyProfile;
    var p := base.(avatar := Some(f.avatar), bio := Some(f.bio),
                   location := Some(ComposeLocation(f.street, f.barangay)),
                   phone := Some(f.phone), skills := Some(f.skills));
    if f.hourlyRate != "" then p.(hourlyRate := Text.ParseNumber(f.hourlyRate)) else p
  }

  /** Loading a profile into the form and saving it unchanged keeps the
      rate, the skills and the rating. */
  lemma LoadSaveKeepsRate(u: User)
    ensures var p := SaveProfile(Some(u), LoadFields(u.profile));
      p.hourlyRate == u.profile.hourlyRate && p.rating == u.profile.rating &&
      p.skills == Some(u.profile.skills.GetOr([]))
  {
    if u.profile.hourlyRate.Some? {
      Text.ParseNumberIntToString(u.profile.hourlyRate.value);
    }
  }

  /** A rate typed into the sanitised field is stored as its decimal value. */
  lemma TypedRateStored(current: Option<User>, f: Fields, typed: string)
    requires f.hourlyRate == DigitsOnly(typed) && f.hourlyRate != ""
    ensures SaveProfile(current, f).hourlyRate == Some(Text.ParseDigits(f.hourlyRate))
  {
    Text.ParseNumberDigits(f.hourlyRate);
  }
}

=== FILE: profile_pages.dfy ===
/** The two pages that write the profile form: the profile page (username
    and profile) and the two-step complete-profile wizard (profile and the
    completed flag, then a redirect). */
module ProfilePages {
  import opened Wrappers
  import opened Domain
  import opened DataContext
  import opened ProfileForm

  // ---------------------------------------------------------------------
  // Profile page
  // ---------------------------------------------------------------------

  datatype PageForm = PageForm(username: string, fields: Fields)

  /** The form filled from the cached user record. */
  function LoadPage(u: User): (f: PageForm)
    ensures f.username == u.username && f.fields == LoadFields(u.profile)
  {
    PageForm(u.username, LoadFields(u.profile))
  }

  /** `handleSubmit` on the profile page: the signed-in user's username and
      profile are written; signed out, nothing happens. */
  function SubmitPage(m: Market, user: Option<AuthUser>, form: PageForm): (r: Market)
    ensures user.None? ==> r == m
    ensures r.jobs == m.jobs && r.applications == m.applications && r.reviews == m.reviews
    ensures |r.users| == |m.users|
    ensures forall i :: 0 <= i < |m.users| && (user.None? || m.users[i].id != user.value.id) ==> r.users[i] == m.users[i]
  {
    if user.None? then m
    else
      var profile := SaveProfile(GetUserById(m.users, user.value.id), form.fields);
      m.(users := UpdateUser(m.users, user.value.id, UserPatch(Some(form.username), Some(profile), None)))
  }

  /** The signed-in user's record after saving the page: the form's username
      and fields, with rating, completed-jobs count and completed flag kept. */
  lemma SubmitPageWritesUser(m: Market, user: AuthUser, form: PageForm, k: nat)
    requires UniqueUserIds(m.users) && k < |m.users| && m.users[k].id == user.id
    ensures var u := SubmitPage(m, Some(user), form).users[k];
      u.username == form.username &&
      u.profile == SaveProfile(Some(m.users[k]), form.fields) &&
      u.profile.rating == m.users[k].profile.rating &&
      u.profile.completedJobs == m.users[k].profile.completedJobs &&
      u.profileCompleted == m.users[k].profileCompleted
  {
    GetUserByIdUnique(m.users, k);
  }

  /** Opening the page and saving without edits keeps the username, the
      rate and the rating, and keeps the location fields exactly when the
      street was not stored alone. */
  lemma OpenAndSaveUnchanged(m: Market, user: AuthUser, k: nat)
    requires UniqueUserIds(m.users) && k < |m.users| && m.users[k].id == user.id
    ensures var form := LoadPage(m.users[k]);
      var u := SubmitPage(m, Some(user), form).users[k];
      u.username == m.users[k].username &&
      u.profile.hourlyRate == m.users[k].profile.hourlyRate &&
      u.profile.rating == m.users[k].profile.rating &&
      (ParseLocation(u.profile.location) == ParseLocation(m.users[k].profile.location) <==>
        (form.fields.street == "" || form.fields.barangay != ""))
  {
    var form := LoadPage(m.users[k]);
    SubmitPageWritesUser(m, user, form, k);
    LoadSaveKeepsRate(m.users[k]);
    LocationRoundTrip(form.fields.street, form.fields.barangay);
  }

  // ---------------------------------------------------------------------
  // Complete-profile wizard
  // ---------------------------------------------------------------------

  datatype Wizard = Wizard(step: nat, fields: Fields)

  const WizardStart := Wizard(1, BlankFields)

  function ChooseAvatar(w: Wizard, url: string): (r: Wizard)
    ensures r.step == w.step && r.fields == w.fields.(avatar := url)
  {
    w.(fields := w.fields.(avatar := url))
  }

  /** "Use Initials": the avatar is cleared and the second step shown. */
  function UseInitials(w: Wizard): (r: Wizard)
    ensures r.step == 2 && r.fields.avatar == "" && r.fields == w.fields.(avatar := "")
  {
    Wizard(2, w.fields.(avatar := ""))
  }

  /** "Continue" is disabled until an avatar is chosen. */
  function Continue(w: Wizard): (r: Wizard)
    ensures r.fields == w.fields
    ensures r.step == (if w.fields.avatar != "" then 2 else w.step)
  {
    if w.fields.avatar != "" then w.(step := 2) else w
  }

  /** "Back" returns to the first step and keeps everything entered. */
  function Back(w: Wizard): (r: Wizard)
    ensures r.step == 1 && r.fields == w.fields
  {
    w.(step := 1)
  }

  /** `handleSubmit` in the wizard: the profile is written together with
      `profileCompleted: true`, and the user is sent to their dashboard.
      Signed out, nothing happens. */
  function SubmitWizard(m: Market, user: Option<AuthUser>, w: Wizard): (r: (Market, Option<string>))
    ensures user.None? ==> r == (m, None)
    ensures user.Some? ==> r.1 == Some(DashboardPath(user.value.role))
    ensures r.0.jobs == m.jobs && r.0.applications == m.applications && r.0.reviews == m.reviews
    ensures |r.0.users| == |m.users|
    ensures forall i :: 0 <= i < |m.users| && (user.None? || m.users[i].id != user.value.id) ==> r.0.users[i] == m.users[i]
  {
    if user.None? then (m, None)
    else
      var profile := SaveProfile(GetUserById(m.users, user.value.id), w.fields);
      (m.(users := UpdateUser(m.users, user.value.id, UserPatch(None, Some(profile), Some(true)))),
       Some(DashboardPath(user.value.role)))
  }

  /** The effect that sends a user whose profile is already complete to
      their dashboard. */
  function RedirectIfComplete(m: Market, user: Option<AuthUser>): (r: Option<string>)
    ensures r.Some? <==> user.Some? && GetUserById(m.users, user.value.id).Some? &&
                         GetUserById(m.users, user.value.id).value.profileCompleted == Some(true)
    ensures r.Some? ==> r.value == DashboardPath(user.value.role)
  {
    if user.Some? then
      match GetUserById(m.users, user.value.id)
      case Some(u) => if u.profileCompleted == Some(true) then Some(DashboardPath(user.value.role)) else None
      case None => None
    else None
  }

  /** Once the wizard is submitted, the user's profile holds what was
      entered, coming back to the wizard redirects to the same dashboard the
      submit went to, and the username is untouched. */
  lemma SubmitWizardCompletes(m: Market, user: AuthUser, w: Wizard, k: nat)
    requires UniqueUserIds(m.users) && k < |m.users| && m.users[k].id == user.id
    ensures var r := SubmitWizard(m, Some(user), w);
      r.0.users[k].profile == SaveProfile(Some(m.users[k]), w.fields) &&
      r.0.users[k].profileCompleted == Some(true) &&
      r.0.users[k].username == m.users[k].username &&
      RedirectIfComplete(r.0, Some(user)) == r.1
  {
    GetUserByIdUnique(m.users, k);
    var r := SubmitWizard(m, Some(user), w);
    assert UniqueUserIds(r.0.users) by {
      assert forall i :: 0 <= i < |m.users| ==> r.0.users[i].id == m.users[i].id;
    }
    GetUserByIdUnique(r.0.users, k);
  }
}

=== FILE: ratings.dfy ===
/** Rating arithmetic: the sum and mean of review ratings, JavaScript's
    `Math.round` (halves round up) and rounding to one decimal place, done on
    exact rationals instead of binary floating point. */
module Ratings {
  import opened Domain

  function Sum(rs: seq<Review>): int {
    if rs == [] then 0 else Sum(rs[..|rs| - 1]) + rs[|rs| - 1].rating
  }

  /** The arithmetic mean of the ratings (`reduce((sum, r) => sum + r.rating, 0) / length`). */
  function Mean(rs: seq<Review>): real
    requires |rs| > 0
  {
    Sum(rs) as real / |rs| as real
  }

  /** `Math.round(x)`: the nearest integer, halves rounded towards +infinity. */
  function RoundHalfUp(x: real): (r: int)
    ensures x - 0.5 < r as real <= x + 0.5
  {
    (x + 0.5).Floor
  }

  /** `Math.round(x * 10) / 10`: the multiple of one tenth nearest to `x`,
      halves rounded up. */
  function RoundToTenth(x: real): (r: real)
    ensures (r * 10.0).Floor as real == r * 10.0
    ensures x - 0.05 < r <= x + 0.05
  {
    RoundHalfUp(x * 10.0) as real / 10.0
  }

  predicate RatingsWithin(rs: seq<Review>, lo: int, hi: int) {
    forall i :: 0 <= i < |rs| ==> lo <= rs[i].rating <= hi
  }

  lemma {:induction false} SumWithin(rs: seq<Review>, lo: int, hi: int)
    requires RatingsWithin(rs, lo, hi)
    ensures |rs| * lo <= Sum(rs) <= |rs| * hi
  {
    if rs != [] {
      SumWithin(rs[..|rs| - 1], lo, hi);
    }
  }

  /** A mean lies between any bounds that hold for every rating. */
  lemma MeanWithin(rs: seq<Review>, lo: int, hi: int)
    requires |rs| > 0
    requires RatingsWithin(rs, lo, hi)
    ensures lo as real <= Mean(rs) <= hi as real
  {
    SumWithin(rs, lo, hi);
    var n := |rs| as real;
    var s := Sum(rs) as real;
    assert n * lo as real <= s <= n * hi as real;
    assert s / n >= lo as real by {
      assert s / n * n == s;
    }
    assert s / n <= hi as real by {
      assert s / n * n == s;
    }
  }

  /** Rounding to a tenth keeps a value that lies between two integers
      between them. */
  lemma RoundToTenthWithin(x: real, lo: int, hi: int)
    requires lo as real <= x <= hi as real
    ensures lo as real <= RoundToTenth(x) <= hi as real
  {
    var k := RoundHalfUp(x * 10.0);
    assert lo * 10 <= k <= hi * 10;
  }
}

=== FILE: reviewing.dfy ===
/** The review form shared by the poster's listings page and the seeker's
    active-jobs page, and the result type of their handlers. */
module Reviewing {
  import opened Wrappers
  import opened Domain
  import opened DataContext
  import Text

  /** The page state the handlers touch: which job the review modal is open
      for (none when closed), the chosen star rating and the comment text. */
  datatype ReviewForm = ReviewForm(reviewingJob: Option<Id>, rating: int, comment: string)

  /** The form after a successful submission: closed, five stars, no text. */
  const ClosedForm := ReviewForm(None, 5, "")

  /** What a page handler leaves behind: the data, the form and the
      notifications it created, in order. */
  datatype Outcome = Outcome(market: Market, form: ReviewForm, emitted: seq<NotificationDraft>)

  /** `hasReviewed`: some review of the job was written by the signed-in
      user (never, when nobody is signed in). */
  function HasReviewed(reviews: seq<Review>, jobId: Id, user: Option<AuthUser>): (b: bool)
    ensures b <==> user.Some? && exists i :: 0 <= i < |reviews| && reviews[i].jobId == jobId && reviews[i].reviewerId == user.value.id
  {
    user.Some? && exists r :: r in GetReviewsByJobId(reviews, jobId) && r.reviewerId == user.value.id
  }

  function ReviewNotice(revieweeId: Id, rating: int, job: Job): NotificationDraft {
    NotificationDraft(revieweeId, ReviewReceived, "New Review Received",
      "You received a " + Text.IntToString(rating) + "-star review for \"" + job.title + "\"", Some(job.id))
  }

  /** The review a submission writes: the comment is trimmed. */
  function DraftFrom(form: ReviewForm, jobId: Id, reviewerId: Id, revieweeId: Id, now: Millis): (d: ReviewDraft)
    ensures d.comment == Text.Trim(form.comment) && d.rating == form.rating
  {
    ReviewDraft(jobId, reviewerId, revieweeId, form.rating, Text.Trim(form.comment), now)
  }

  /** Once the user's review of the job is stored, the job counts as reviewed
      by them. */
  lemma AddReviewMarksReviewed(m: Market, d: ReviewDraft, newId: Id, user: AuthUser)
    requires d.reviewerId == user.id
    ensures HasReviewed(AddReview(m, d, newId).reviews, d.jobId, Some(user))
  {
    var reviews := AddReview(m, d, newId).reviews;
    var r := WithReviewId(d, newId);
    assert reviews[|reviews| - 1] == r;
    assert r in GetReviewsByJobId(reviews, d.jobId);
  }

  /** Adding a review never un-reviews a job. */
  lemma AddReviewKeepsReviewed(m: Market, d: ReviewDraft, newId: Id, jobId: Id, user: Option<AuthUser>)
    requires HasReviewed(m.reviews, jobId, user)
    ensures HasReviewed(AddReview(m, d, newId).reviews, jobId, user)
  {
    var r :| r in GetReviewsByJobId(m.reviews, jobId) && r.reviewerId == user.value.id;
    assert r in AddReview(m, d, newId).reviews;
  }
}

=== FILE: reviews_page.dfy ===
/** The My Reviews page: the signed-in user's received reviews, their
    average, the star rows and the captions. */
module ReviewsPage {
  import opened Wrappers
  import opened Domain
  import opened DataContext
  import opened Ratings
  import Text

  /** The reviews listed: those whose reviewee is the signed-in user. */
  function MyReviews(m: Market, user: Option<AuthUser>): (r: seq<Review>)
    ensures forall x :: x in r <==> user.Some? && x in m.reviews && x.revieweeId == user.value.id
  {
    if user.Some? then GetReviewsByRevieweeId(m.reviews, user.value.id) else []
  }

  /** The average shown: zero for no reviews, otherwise the mean rating. */
  function Average(rs: seq<Review>): (r: real)
    ensures rs == [] ==> r == 0.0
    ensures |rs| > 0 ==> r * |rs| as real == Sum(rs) as real
  {
    if |rs| > 0 then Mean(rs) else 0.0
  }

  /** The summary card appears exactly when there is a review. */
  predicate ShowsSummary(rs: seq<Review>) {
    |rs| > 0
  }

  /** A row of five stars; star `i` (from 1) is filled when `i <= n`. */
  function Stars(n: int): (r: seq<bool>)
    ensures |r| == 5
    ensures forall i :: 0 <= i < 5 ==> (r[i] <==> i + 1 <= n)
  {
    seq(5, i requires 0 <= i < 5 => i + 1 <= n)
  }

  function Filled(s: seq<bool>): nat {
    if s == [] then 0 else Filled(s[..|s| - 1]) + (if s[|s| - 1] then 1 else 0)
  }

  function Clamp(n: int, lo: int, hi: int): int {
    if n < lo then lo else if n > hi then hi else n
  }

  /** In a row whose filled stars come first, the count of filled stars is
      `n` clamped to the row's length. */
  lemma {:induction false} FilledPrefix(s: seq<bool>, n: int)
    requires forall i :: 0 <= i < |s| ==> (s[i] <==> i + 1 <= n)
    ensures Filled(s) == Clamp(n, 0, |s|)
    decreases |s|
  {
    if s != [] {
      FilledPrefix(s[..|s| - 1], n);
    }
  }

  /** The summary row fills as many stars as the rounded average, at most
      five; each card fills as many as its rating. */
  lemma StarsCount(n: int)
    ensures Filled(Stars(n)) == Clamp(n, 0, 5)
  {
    FilledPrefix(Stars(n), n);
  }

  /** The summary stars of the page: as many filled as the rounded average,
      none at all for no reviews. */
  function SummaryStars(rs: seq<Review>): (r: seq<bool>)
    ensures |r| == 5
    ensures Filled(r) == Clamp(RoundHalfUp(Average(rs)), 0, 5)
    ensures rs == [] ==> Filled(r) == 0
  {
    StarsCount(RoundHalfUp(Average(rs)));
    Stars(RoundHalfUp(Average(rs)))
  }

  /** With ratings from 1 to 5, a non-empty list shows an average in [1, 5]
      and fills between one and five summary stars. */
  lemma SummaryBounds(rs: seq<Review>)
    requires |rs| > 0 && RatingsWithin(rs, 1, 5)
    ensures 1.0 <= Average(rs) <= 5.0
    ensures 1 <= Filled(SummaryStars(rs)) <= 5
    ensures Filled(SummaryStars(rs)) == RoundHalfUp(Average(rs))
  {
    MeanWithin(rs, 1, 5);
    StarsCount(RoundHalfUp(Average(rs)));
  }

  /** "Based on N review(s)": singular exactly for one review. */
  function BasedOn(n: nat): (r: string)
    ensures |r| > 0 && (r[|r| - 1] == 's' <==> n != 1)
  {
    "Based on " + Text.NatToString(n) + " review" + (if n != 1 then "s" else "")
  }

  /** The reviewer's name, or "Anonymous" when the reviewer is not cached
      or has an empty name. */
  function ReviewerName(users: seq<User>, review: Review): (r: string)
    ensures r != ""
    ensures r == "Anonymous" <==>
      (GetUserById(users, review.reviewerId).None? ||
       GetUserById(users, review.reviewerId).value.username in {"", "Anonymous"})
  {
    match GetUserById(users, review.reviewerId)
    case Some(u) => if u.username != "" then u.username else "Anonymous"
    case None => "Anonymous"
  }

  /** The quoted comment is shown only when present and not empty. */
  function CommentShown(review: Review): (r: Option<string>)
    ensures r.Some? <==> review.comment.Some? && review.comment.value != ""
    ensures r.Some? ==> r == review.comment
  {
    if review.comment.Some? && review.comment.value != "" then review.comment else None
  }
}

=== FILE: seeker_search.dfy ===
/** The seeker's Browse Jobs page: a fixed list of sample jobs filtered by a
    text query and a category. */
module SeekerSearch {
  import opened Wrappers
  import opened Seqs
  import opened Domain
  import Text

  function Sample(id: Id, title: string, description: string, category: JobCategory,
                  location: string, rate: int, posterId: Id): Job {
    Job(id, posterId, title, description, category, location, rate, Open, None, None, 0, None)
  }

  /** The page's built-in listings (their creation time, the page load time,
      is fixed at 0 here). */
  const MockJobs: seq<Job> := [
    Sample("1", "Garden Cleaning", "Help maintain a beautiful garden. Weeding, trimming, and general cleanup needed.",
      Gardening, "Makati City", 250, "p1"),
    Sample("2", "House Painting", "Interior painting for a 2-bedroom apartment. Paint and materials provided.",
      Repairs, "Quezon City", 300, "p2"),
    Sample("3", "Errands Helper", "Looking for someone to help with various daily errands.",
      Errands, "Taguig", 200, "p3"),
    Sample("4", "Grocery Delivery", "Need help with weekly grocery shopping and delivery.",
      Delivery, "Pasig City", 150, "p4")
  ]

  /** Case-insensitive `includes` on the title or the description. */
  predicate MatchesQuery(job: Job, query: string) {
    Text.Contains(Text.Lower(job.title), Text.Lower(query)) ||
    Text.Contains(Text.Lower(job.description), Text.Lower(query))
  }

  function QueryTest(query: string): Job -> bool {
    (j: Job) => MatchesQuery(j, query)
  }

  function CategoryTest(category: string): Job -> bool {
    (j: Job) => CategoryName(j.category) == category
  }

  /** `handleSearch`: a non-empty query keeps the jobs whose title or
      description contains it, ignoring case; a chosen category then keeps
      the jobs of that category. Order is kept. */
  function Search(jobs: seq<Job>, query: string, category: string): (r: seq<Job>)
    ensures forall j :: j in r <==>
      (j in jobs && (query == "" || MatchesQuery(j, query)) && (category == "" || CategoryName(j.category) == category))
    ensures IsSubsequence(r, jobs)
    ensures forall j ::
      multiset(r)[j] ==
        if (query == "" || MatchesQuery(j, query)) && (category == "" || CategoryName(j.category) == category)
        then multiset(jobs)[j] else 0
  {
    var byQuery := if query != "" then Filter(jobs, QueryTest(query)) else jobs;
    var byCategory := if category != "" then Filter(byQuery, CategoryTest(category)) else byQuery;
    FilterMultiset(jobs, QueryTest(query));
    FilterMultiset(byQuery, CategoryTest(category));
    assert IsSubsequence(byCategory, jobs) by {
      if query != "" && category != "" {
        SubsequenceTransitive(byCategory, byQuery, jobs);
      } else if query == "" && category == "" {
        SubsequenceReflexive(jobs);
      }
    }
    byCategory
  }

  /** With neither a query nor a category every job is shown. */
  lemma SearchShowsAllWhenBlank(jobs: seq<Job>)
    ensures Search(jobs, "", "") == jobs
  {
  }

  /** A query matches the same jobs in any letter case. */
  lemma SearchIgnoresCase(jobs: seq<Job>, query: string, category: string)
    ensures Search(jobs, Text.Lower(query), category) == Search(jobs, query, category)
  {
    LowerIdempotent(query);
    if query != "" {
      FilterCongruent(jobs, QueryTest(Text.Lower(query)), QueryTest(query));
    }
  }

  lemma LowerIdempotent(s: string)
    ensures Text.Lower(Text.Lower(s)) == Text.Lower(s)
  {
  }
}

=== FILE: seo.dfy ===
/** Page metadata: the site defaults, the per-page builder and the job page
    builder with its truncated description and rate label. */
module Seo {
  import opened Wrappers
  import Text

  const SiteName := "Job Start"
  const DefaultDescription := "Find flexible work in your community. No resumes, no long applications. Just real work, right now."
  const DefaultImage := "/og-image.png"
  const FallbackUrl := "https://jobstart.com"

  /** The site address: the configured one unless it is missing or empty. */
  function SiteUrl(configured: Option<string>): (r: string)
    ensures r != ""
    ensures configured.Some? && configured.value != "" ==> r == configured.value
  {
    if configured.Some? && configured.value != "" then configured.value else FallbackUrl
  }

  datatype Robots = Robots(index: bool, follow: bool)

  /** The fields of the generated metadata this model keeps: the Open Graph
      and Twitter blocks repeat title, description, URL and image. */
  datatype PageMeta = PageMeta(
    title: string,
    description: string,
    canonical: string,
    ogUrl: string,
    ogImage: string,
    twitterImage: string,
    robots: Option<Robots>)

  /** `generatePageMetadata`: the path defaults to "" only when absent; an
      empty description or image falls back to the site's; the page opts
      out of indexing and following only when `noIndex` is set. */
  function PageMetadata(siteUrl: string, title: string, description: Option<string>, path: Option<string>,
                        image: Option<string>, noIndex: Option<bool>): (r: PageMeta)
    ensures r.title == title
    ensures r.canonical == siteUrl + path.GetOr("") && r.ogUrl == r.canonical
    ensures r.description != "" && r.ogImage != "" && r.twitterImage == r.ogImage
    ensures description.Some? && description.value != "" ==> r.description == description.value
    ensures description.None? || description.value == "" ==> r.description == DefaultDescription
    ensures image.Some? && image.value != "" ==> r.ogImage == image.value
    ensures image.None? || image.value == "" ==> r.ogImage == DefaultImage
    ensures r.robots.Some? <==> noIndex == Some(true)
    ensures r.robots.Some? ==> !r.robots.value.index && !r.robots.value.follow
  {
    var url := siteUrl + path.GetOr("");
    var desc := if description.Some? && description.value != "" then description.value else DefaultDescription;
    var img := if image.Some? && image.value != "" then image.value else DefaultImage;
    PageMeta(title, desc, url, url, img, img, if noIndex == Some(true) then Some(Robots(false, false)) else None)
  }

  /** The description cut to 157 characters plus "..." when it is longer
      than 160; shorter ones are kept whole. */
  function Truncate(d: string): (r: string)
    ensures |r| <= 160
    ensures |d| <= 160 ==> r == d
    ensures |d| > 160 ==> |r| == 160 && r[..157] == d[..157] && r[157..] == "..."
  {
    if |d| > 160 then d[..157] + "..." else d
  }

  /** The peso sign U+20B1. */
  const Peso := "\U{20B1}"

  /** The three characters U+00E2 U+201A U+00B1: the peso sign's UTF-8 bytes
      read as Windows-1252, as they stand in the job page description. */
  const MisencodedPeso := "\U{00E2}\U{201A}\U{00B1}"

  /** The rate as the job cards and listings show it: "₱<rate>/hr". */
  function RateLabel(rate: int): (r: string)
    ensures |r| >= 5 && r[0] == '\U{20B1}' && r[1..|r| - 3] == Text.IntToString(rate) && r[|r| - 3..] == "/hr"
  {
    Peso + Text.IntToString(rate) + "/hr"
  }

  predicate EndsWith(s: string, suffix: string) {
    |suffix| <= |s| && s[|s| - |suffix|..] == suffix
  }

  /** `generateJobMetadata` as written: the rate suffix carries the
      misencoded peso sign. */
  function JobMetadataAsWritten(siteUrl: string, title: string, description: string, location: string,
                                rate: int, id: string): (r: PageMeta)
    ensures r.title == title + " - " + location
    ensures r.canonical == siteUrl + "/jobs/" + id
  {
    PageMetadata(siteUrl, title + " - " + location,
      Some(Truncate(description) + " | " + MisencodedPeso + Text.IntToString(rate) + "/hr"),
      Some("/jobs/" + id), None, None)
  }

  /** The as-written description never ends with the rate label the cards
      show, whatever the job. */
  lemma JobDescriptionAsWrittenMislabels(siteUrl: string, title: string, description: string, location: string,
                                          rate: int, id: string)
    ensures !EndsWith(JobMetadataAsWritten(siteUrl, title, description, location, rate, id).description, RateLabel(rate))
  {
    var digits := Text.IntToString(rate);
    var tail := MisencodedPeso + digits + "/hr";
    var given := Truncate(description) + " | " + tail;
    var d := JobMetadataAsWritten(siteUrl, title, description, location, rate, id).description;
    assert d == given;
    var shown := RateLabel(rate);
    assert |shown| == |digits| + 4;
    assert |tail| == |digits| + 6;
    assert d[|d| - |shown|] == tail[2];
    assert tail[2] == '\U{00B1}';
  }

  /** `generateJobMetadata` with the peso sign intended: title "<title> -
      <location>", path "/jobs/<id>", and the truncated description followed
      by " | " and the same rate label the cards show. */
  function JobMetadata(siteUrl: string, title: string, description: string, location: string,
                       rate: int, id: string): (r: PageMeta)
    ensures r.title == title + " - " + location
    ensures r.canonical == siteUrl + "/jobs/" + id
    ensures r.robots.None?
  {
    PageMetadata(siteUrl, title + " - " + location,
      Some(Truncate(description) + " | " + RateLabel(rate)),
      Some("/jobs/" + id), None, None)
  }

  /** The corrected description is the (truncated) job description, then
      " | ", then the card's rate label; it is at most 163 characters longer
      than the label. */
  lemma JobDescriptionLabelsRate(siteUrl: string, title: string, description: string, location: string,
                                 rate: int, id: string)
    ensures var d := JobMetadata(siteUrl, title, description, location, rate, id).description;
      EndsWith(d, RateLabel(rate)) &&
      d[..|d| - |RateLabel(rate)|] == Truncate(description) + " | " &&
      |d| <= 163 + |RateLabel(rate)|
  {
    var d := JobMetadata(siteUrl, title, description, location, rate, id).description;
    assert d == Truncate(description) + " | " + RateLabel(rate);
  }
}

=== FILE: seqs.dfy ===
/** Sequence combinators behind the source's `Array.prototype` calls:
    `filter`, `find`, `some`, `map` with a conditional update, and a sort by
    a numeric key in descending order (`orderBy(key, 'desc')`). */
module Seqs {
  import opened Wrappers

  /** `r` can be obtained from `s` by deleting elements, keeping order. */
  predicate IsSubsequence<T(==)>(r: seq<T>, s: seq<T>)
    decreases |s|
  {
    r == [] || (s != [] && ((r[0] == s[0] && IsSubsequence(r[1..], s[1..])) || IsSubsequence(r, s[1..])))
  }

  /** Every sequence is a subsequence of itself. */
  lemma {:induction false} SubsequenceReflexive<T>(s: seq<T>)
    ensures IsSubsequence(s, s)
  {
    if s != [] {
      SubsequenceReflexive(s[1..]);
    }
  }

  /** Being a subsequence is transitive. */
  lemma {:induction false} SubsequenceTransitive<T>(a: seq<T>, b: seq<T>, c: seq<T>)
    requires IsSubsequence(a, b) && IsSubsequence(b, c)
    ensures IsSubsequence(a, c)
    decreases |c|
  {
    if a != [] {
      if b[0] == c[0] && IsSubsequence(b[1..], c[1..]) {
        if a[0] == b[0] && IsSubsequence(a[1..], b[1..]) {
          SubsequenceTransitive(a[1..], b[1..], c[1..]);
        } else {
          SubsequenceTransitive(a, b[1..], c[1..]);
        }
      } else {
        SubsequenceTransitive(a, b, c[1..]);
      }
    }
  }

  /** `s.filter(p)`: exactly the elements satisfying `p`, in their original order. */
  function Filter<T(==)>(s: seq<T>, p: T -> bool): (r: seq<T>)
    ensures |r| <= |s|
    ensures forall i :: 0 <= i < |r| ==> p(r[i]) && r[i] in s
    ensures forall i :: 0 <= i < |s| && p(s[i]) ==> s[i] in r
    ensures IsSubsequence(r, s)
  {
    if s == [] then []
    else
      var rest := Filter(s[1..], p);
      assert forall i :: 1 <= i < |s| ==> s[i] == s[1..][i - 1];
      if p(s[0]) then [s[0]] + rest else rest
  }

  /** Filtering keeps every copy of an element satisfying `p` and no copy of
      any other: multiplicities, not just membership. */
  lemma {:induction false} FilterMultiplicity<T>(s: seq<T>, p: T -> bool, x: T)
    ensures multiset(Filter(s, p))[x] == if p(x) then multiset(s)[x] else 0
  {
    if s != [] {
      FilterMultiplicity(s[1..], p, x);
      assert s == [s[0]] + s[1..];
      if p(s[0]) {
        assert Filter(s, p) == [s[0]] + Filter(s[1..], p);
      }
    }
  }

  lemma FilterMultiset<T>(s: seq<T>, p: T -> bool)
    ensures forall x :: multiset(Filter(s, p))[x] == if p(x) then multiset(s)[x] else 0
  {
    forall x {
      FilterMultiplicity(s, p, x);
    }
  }

  /** Number of elements satisfying `p` (`s.filter(p).length`). */
  function Count<T(==)>(s: seq<T>, p: T -> bool): nat {
    |Filter(s, p)|
  }

  /** A filter that keeps everything is the identity. */
  lemma {:induction false} FilterAll<T>(s: seq<T>, p: T -> bool)
    requires forall i :: 0 <= i < |s| ==> p(s[i])
    ensures Filter(s, p) == s
  {
    if s != [] {
      FilterAll(s[1..], p);
    }
  }

  /** Filtering by `p` and then by `q` keeps what satisfies both. */
  lemma {:induction false} FilterFilter<T>(s: seq<T>, p: T -> bool, q: T -> bool, both: T -> bool)
    requires forall i :: 0 <= i < |s| ==> (both(s[i]) <==> p(s[i]) && q(s[i]))
    ensures Filter(Filter(s, p), q) == Filter(s, both)
  {
    if s != [] {
      FilterFilter(s[1..], p, q, both);
    }
  }

  /** Filtering distributes over concatenation. */
  lemma {:induction false} FilterAppend<T>(s: seq<T>, t: seq<T>, p: T -> bool)
    ensures Filter(s + t, p) == Filter(s, p) + Filter(t, p)
  {
    if s != [] {
      var st := s + t;
      assert st[0] == s[0] && st[1..] == s[1..] + t;
      FilterAppend(s[1..], t, p);
      var a, b := Filter(s[1..], p), Filter(t, p);
      if p(s[0]) {
        assert Filter(st, p) == [s[0]] + (a + b);
        assert Filter(s, p) == [s[0]] + a;
        assert [s[0]] + (a + b) == ([s[0]] + a) + b;
      } else {
        assert Filter(st, p) == a + b;
        assert Filter(s, p) == a;
      }
    } else {
      assert s + t == t;
    }
  }

  /** A stronger predicate never keeps more elements. */
  lemma {:induction false} CountMonotone<T>(s: seq<T>, p: T -> bool, q: T -> bool)
    requires forall i :: 0 <= i < |s| && p(s[i]) ==> q(s[i])
    ensures Count(s, p) <= Count(s, q)
  {
    if s != [] {
      CountMonotone(s[1..], p, q);
    }
  }

  /** When exactly one element satisfies `p`, the count is one. */
  lemma {:induction false} CountOne<T>(s: seq<T>, p: T -> bool, k: nat)
    requires k < |s| && p(s[k])
    requires forall i :: 0 <= i < |s| && i != k ==> !p(s[i])
    ensures Count(s, p) == 1
  {
    if k == 0 {
      CountNone(s[1..], p);
    } else {
      CountOne(s[1..], p, k - 1);
    }
  }

  /** A zero count means no element satisfies `p`. */
  lemma CountZeroNone<T>(s: seq<T>, p: T -> bool)
    requires Count(s, p) == 0
    ensures forall i :: 0 <= i < |s| ==> !p(s[i])
  {
    forall i | 0 <= i < |s|
      ensures !p(s[i])
    {
      assert Filter(s, p) == [];
    }
  }

  /** When no element satisfies `p`, the count is zero. */
  lemma {:induction false} CountNone<T>(s: seq<T>, p: T -> bool)
    requires forall i :: 0 <= i < |s| ==> !p(s[i])
    ensures Count(s, p) == 0
  {
    if s != [] {
      CountNone(s[1..], p);
    }
  }

  /** Filters with predicates that agree on `s` give the same result. */
  lemma {:induction false} FilterCongruent<T>(s: seq<T>, p: T -> bool, q: T -> bool)
    requires forall i :: 0 <= i < |s| ==> (p(s[i]) <==> q(s[i]))
    ensures Filter(s, p) == Filter(s, q)
  {
    if s != [] {
      FilterCongruent(s[1..], p, q);
    }
  }

  /** Index of the first element satisfying `p` (`s.findIndex(p)`). */
  function FindIndex<T>(s: seq<T>, p: T -> bool): (r: Option<nat>)
    ensures r.None? <==> forall i :: 0 <= i < |s| ==> !p(s[i])
    ensures r.Some? ==> r.value < |s| && p(s[r.value])
    ensures r.Some? ==> forall i :: 0 <= i < r.value ==> !p(s[i])
  {
    if s == [] then None
    else if p(s[0]) then Some(0)
    else match FindIndex(s[1..], p)
      case None => None
      case Some(i) => Some(i + 1)
  }

  /** `s.find(p)`: the first element satisfying `p`, or `undefined`. */
  function Find<T>(s: seq<T>, p: T -> bool): (r: Option<T>)
    ensures r.None? <==> forall i :: 0 <= i < |s| ==> !p(s[i])
    ensures r.Some? ==> exists i :: 0 <= i < |s| && s[i] == r.value && p(s[i])
  {
    match FindIndex(s, p)
    case None => None
    case Some(i) => Some(s[i])
  }

  /** `s.map(x => p(x) ? f(x) : x)`: the elements selected by `p` are
      replaced by their image under `f`, the others are kept. */
  function MapWhere<T>(s: seq<T>, p: T -> bool, f: T -> T): (r: seq<T>)
    ensures |r| == |s|
    ensures forall i :: 0 <= i < |s| && p(s[i]) ==> r[i] == f(s[i])
    ensures forall i :: 0 <= i < |s| && !p(s[i]) ==> r[i] == s[i]
  {
    if s == [] then [] else [if p(s[0]) then f(s[0]) else s[0]] + MapWhere(s[1..], p, f)
  }

  /** Keys in descending order: `orderBy(key, 'desc')`. */
  predicate SortedDesc<T>(s: seq<T>, key: T -> int) {
    forall i, j :: 0 <= i < j < |s| ==> key(s[i]) >= key(s[j])
  }

  /** Insert `x` into a descending sequence, after every element whose key is
      at least `key(x)`. */
  function Insert<T>(x: T, s: seq<T>, key: T -> int): (r: seq<T>)
    requires SortedDesc(s, key)
    ensures SortedDesc(r, key)
    ensures multiset(r) == multiset(s) + multiset{x}
    ensures |r| == |s| + 1
    ensures r[0] == x || (s != [] && r[0] == s[0])
  {
    if s == [] || key(s[0]) < key(x) then [x] + s
    else
      var rest := Insert(x, s[1..], key);
      assert s == [s[0]] + s[1..];
      assert key(rest[0]) <= key(s[0]);
      [s[0]] + rest
  }

  /** Insertion sort by descending key: a permutation of `s` in key order.
      The order among equal keys is this function's own choice; no contract
      in the model depends on it. */
  function SortDesc<T>(s: seq<T>, key: T -> int): (r: seq<T>)
    ensures SortedDesc(r, key)
    ensures multiset(r) == multiset(s)
    ensures |r| == |s|
  {
    if s == [] then []
    else
      var n := |s| - 1;
      assert s == s[..n] + [s[n]];
      Insert(s[n], SortDesc(s[..n], key), key)
  }
}

=== FILE: store.dfy ===
/** The document store behind the pages, as in-memory collections: each
    collection is a sequence of documents `(id, data)`; reads return the data
    with `_id` set to the document id. Realtime subscriptions, server
    timestamps and the SDK calls themselves are not modelled. */
module Store {
  import opened Wrappers
  import opened Seqs
  import opened Domain
  import DataContext

  datatype Doc<T> = Doc(id: Id, data: T)

  // ---------------------------------------------------------------------
  // notificationsService
  // ---------------------------------------------------------------------

  /** `create`: the draft is stored unread with the creation time; `id` is the
      id the store allocated for the new document. */
  function CreateNotification(notes: seq<Notification>, d: NotificationDraft, id: Id, now: Millis): (r: seq<Notification>)
    ensures |r| == |notes| + 1 && r[..|notes|] == notes
    ensures var n := r[|notes|];
      !n.read && n.id == id && n.createdAt == now &&
      n.userId == d.userId && n.kind == d.kind && n.title == d.title && n.message == d.message && n.jobId == d.jobId
  {
    notes + [Notification(id, d.userId, d.kind, d.title, d.message, false, now, d.jobId)]
  }

  function SetRead(n: Notification): Notification {
    n.(read := true)
  }

  /** `markAsRead`: sets the flag of the notification with that id; updating
      a document that does not exist is rejected by the store. */
  function MarkAsRead(notes: seq<Notification>, id: Id): (r: Result<seq<Notification>>)
    ensures r.Failure? <==> forall i :: 0 <= i < |notes| ==> notes[i].id != id
    ensures r.Success? ==> |r.value| == |notes|
    ensures r.Success? ==> forall i :: 0 <= i < |notes| ==>
      r.value[i] == (if notes[i].id == id then notes[i].(read := true) else notes[i])
  {
    if forall i :: 0 <= i < |notes| ==> notes[i].id != id then Failure("No document to update")
    else Success(MapWhere(notes, (n: Notification) => n.id == id, SetRead))
  }

  /** Marking the same notification read again changes nothing. */
  lemma MarkAsReadIdempotent(notes: seq<Notification>, id: Id)
    requires MarkAsRead(notes, id).Success?
    ensures MarkAsRead(MarkAsRead(notes, id).value, id) == MarkAsRead(notes, id)
  {
    var once := MarkAsRead(notes, id).value;
    var k :| 0 <= k < |notes| && notes[k].id == id;
    assert once[k].id == id;
    var twice := MarkAsRead(once, id).value;
    assert forall i :: 0 <= i < |notes| ==> twice[i] == once[i];
    assert twice == once;
  }

  /** With unique ids, exactly the one notification with that id changes,
      and it ends up read. */
  lemma MarkAsReadChangesOne(notes: seq<Notification>, k: nat)
    requires k < |notes|
    requires forall i, j :: 0 <= i < j < |notes| ==> notes[i].id != notes[j].id
    ensures MarkAsRead(notes, notes[k].id).Success?
    ensures MarkAsRead(notes, notes[k].id).value[k] == notes[k].(read := true)
    ensures forall i :: 0 <= i < |notes| && i != k ==> MarkAsRead(notes, notes[k].id).value[i] == notes[i]
  {
  }

  /** `markAllAsRead`: every notification of the user ends up read; the other
      users' notifications are untouched. */
  function MarkAllAsRead(notes: seq<Notification>, userId: Id): (r: seq<Notification>)
    ensures |r| == |notes|
    ensures forall i :: 0 <= i < |notes| && notes[i].userId == userId ==> r[i] == notes[i].(read := true)
    ensures forall i :: 0 <= i < |notes| && notes[i].userId != userId ==> r[i] == notes[i]
  {
    MapWhere(notes, (n: Notification) => n.userId == userId && !n.read, SetRead)
  }

  /** After `markAllAsRead(u)` the unread count of `u` is zero. */
  lemma MarkAllAsReadClearsUnread(notes: seq<Notification>, userId: Id)
    ensures DataContext.GetUnreadCount(MarkAllAsRead(notes, userId), userId) == 0
  {
    var r := MarkAllAsRead(notes, userId);
    var unread := DataContext.UnreadForUser(userId);
    var kept := Filter(r, unread);
  }

  /** `clearAll`: the user's notifications are deleted, all others kept in order. */
  function ClearAll(notes: seq<Notification>, userId: Id): (r: seq<Notification>)
    ensures forall n :: n in r <==> n in notes && n.userId != userId
    ensures IsSubsequence(r, notes)
  {
    Filter(notes, (n: Notification) => n.userId != userId)
  }

  /** After `clearAll(u)`, `u` has no notifications and every other user has
      exactly the ones they had. */
  lemma ClearAllScope(notes: seq<Notification>, userId: Id, other: Id)
    requires other != userId
    ensures DataContext.GetNotificationsByUserId(ClearAll(notes, userId), userId) == []
    ensures DataContext.GetNotificationsByUserId(ClearAll(notes, userId), other) ==
            DataContext.GetNotificationsByUserId(notes, other)
  {
    var mine := DataContext.GetNotificationsByUserId(ClearAll(notes, userId), userId);
    FilterFilter(notes, (n: Notification) => n.userId != userId, DataContext.ForUser(other), DataContext.ForUser(other));
  }

  // ---------------------------------------------------------------------
  // jobsService and applicationsService reads
  // ---------------------------------------------------------------------

  /** Document data with `_id` replaced by the document id; an unset
      `completedAt` stays unset. */
  function ReadJob(d: Doc<Job>): Job {
    d.data.(id := d.id)
  }

  function ReadJobs(docs: seq<Doc<Job>>): (r: seq<Job>)
    ensures |r| == |docs|
    ensures forall i :: 0 <= i < |docs| ==> r[i] == ReadJob(docs[i])
  {
    seq(|docs|, i requires 0 <= i < |docs| => ReadJob(docs[i]))
  }

  /** `jobsService.get`: `null` when no document has that id; otherwise the
      stored fields, with `_id` the document id whatever the data says. */
  function GetJob(docs: seq<Doc<Job>>, id: Id): (r: Option<Job>)
    ensures r.None? <==> forall i :: 0 <= i < |docs| ==> docs[i].id != id
    ensures r.Some? ==> r.value.id == id
    ensures r.Some? ==> (exists i :: 0 <= i < |docs| && docs[i].id == id &&
                          r.value.completedAt == docs[i].data.completedAt &&
                          r.value.(id := docs[i].data.id) == docs[i].data)
  {
    match Find(docs, (d: Doc<Job>) => d.id == id)
    case None => None
    case Some(d) => Some(ReadJob(d))
  }

  function CreatedAt(j: Job): int {
    j.createdAt
  }

  /** `jobsService.getByPoster`: the poster's jobs, newest first. */
  function GetByPoster(docs: seq<Doc<Job>>, posterId: Id): (r: seq<Job>)
    ensures SortedDesc(r, CreatedAt)
    ensures multiset(r) == multiset(DataContext.GetJobsByPosterId(ReadJobs(docs), posterId))
    ensures forall j :: j in r ==> j.posterId == posterId
  {
    var r := SortDesc(DataContext.GetJobsByPosterId(ReadJobs(docs), posterId), CreatedAt);
    assert forall j :: j in r ==> j in multiset(r);
    r
  }

  /** `jobsService.getOpen`: the open jobs, newest first. */
  function GetOpen(docs: seq<Doc<Job>>): (r: seq<Job>)
    ensures SortedDesc(r, CreatedAt)
    ensures multiset(r) == multiset(DataContext.GetOpenJobs(ReadJobs(docs)))
    ensures forall j :: j in r ==> j.status == Open
  {
    var r := SortDesc(DataContext.GetOpenJobs(ReadJobs(docs)), CreatedAt);
    assert forall j :: j in r ==> j in multiset(r);
    r
  }

  /** `applicationsService.get`: `null` when missing; otherwise `_id` is the
      document id and an unset `respondedAt` stays unset. */
  function GetApplication(docs: seq<Doc<Application>>, id: Id): (r: Option<Application>)
    ensures r.None? <==> forall i :: 0 <= i < |docs| ==> docs[i].id != id
    ensures r.Some? ==> r.value.id == id
    ensures r.Some? ==> (exists i :: 0 <= i < |docs| && docs[i].id == id &&
                          r.value.respondedAt == docs[i].data.respondedAt &&
                          r.value.(id := docs[i].data.id) == docs[i].data)
  {
    match Find(docs, (d: Doc<Application>) => d.id == id)
    case None => None
    case Some(d) => Some(d.data.(id := d.id))
  }
}

=== FILE: text.dfy ===
/** Character and string helpers shared by the pages: ASCII case mapping,
    whitespace trimming, substring search and decimal conversion. */
module Text {
  import opened Wrappers

  predicate IsDigit(c: char) {
    '0' <= c <= '9'
  }

  /** JavaScript's whitespace, as `\s` and `trim()` see it: the ECMAScript
      WhiteSpace characters (tab, vertical tab, form feed, U+FEFF and the
      space separators of Unicode category Zs) and the LineTerminator
      characters (line feed, carriage return, U+2028, U+2029). */
  predicate IsSpace(c: char) {
    c == '\t' || c == '\n' || c == '\U{000B}' || c == '\U{000C}' || c == '\r' || c == ' ' ||
    c == '\U{00A0}' || c == '\U{1680}' || '\U{2000}' <= c <= '\U{200A}' ||
    c == '\U{2028}' || c == '\U{2029}' || c == '\U{202F}' || c == '\U{205F}' ||
    c == '\U{3000}' || c == '\U{FEFF}'
  }

  predicate AllDigits(s: string) {
    forall i :: 0 <= i < |s| ==> IsDigit(s[i])
  }

  predicate HasNoSpace(s: string) {
    forall i :: 0 <= i < |s| ==> !IsSpace(s[i])
  }

  function LowerChar(c: char): char {
    if 'A' <= c <= 'Z' then (c as int + 32) as char else c
  }

  function UpperChar(c: char): char {
    if 'a' <= c <= 'z' then (c as int - 32) as char else c
  }

  /** `toLowerCase()` restricted to ASCII letters. */
  function Lower(s: string): (r: string)
    ensures |r| == |s|
    ensures forall i :: 0 <= i < |s| ==> r[i] == LowerChar(s[i])
  {
    seq(|s|, i requires 0 <= i < |s| => LowerChar(s[i]))
  }

  /** `toUpperCase()` restricted to ASCII letters. */
  function Upper(s: string): (r: string)
    ensures |r| == |s|
    ensures forall i :: 0 <= i < |s| ==> r[i] == UpperChar(s[i])
  {
    seq(|s|, i requires 0 <= i < |s| => UpperChar(s[i]))
  }

  /** `s.includes(sub)`: `sub` occurs in `s` at some offset. */
  predicate Contains(s: string, sub: string)
    decreases |s|
  {
    sub <= s || (|s| > 0 && Contains(s[1..], sub))
  }

  /** `s.startsWith(p)`. */
  predicate StartsWith(s: string, p: string) {
    p <= s
  }

  /** Leading whitespace removed. */
  function TrimStart(s: string): (r: string)
    ensures |r| <= |s| && r == s[|s| - |r|..]
    ensures r == [] || !IsSpace(r[0])
    ensures forall i :: 0 <= i < |s| - |r| ==> IsSpace(s[i])
  {
    if |s| > 0 && IsSpace(s[0]) then TrimStart(s[1..]) else s
  }

  /** Trailing whitespace removed. */
  function TrimEnd(s: string): (r: string)
    ensures |r| <= |s| && r == s[..|r|]
    ensures r == [] || !IsSpace(r[|r| - 1])
    ensures forall i :: |r| <= i < |s| ==> IsSpace(s[i])
  {
    if |s| > 0 && IsSpace(s[|s| - 1]) then TrimEnd(s[..|s| - 1]) else s
  }

  /** `s.trim()`: no whitespace at either end, and only whitespace removed. */
  function Trim(s: string): (r: string)
    ensures |r| <= |s|
    ensures r == [] || (!IsSpace(r[0]) && !IsSpace(r[|r| - 1]))
    ensures r == [] <==> forall i :: 0 <= i < |s| ==> IsSpace(s[i])
    ensures r <= TrimStart(s) && forall i :: |r| <= i < |TrimStart(s)| ==> IsSpace(TrimStart(s)[i])
  {
    TrimEnd(TrimStart(s))
  }

  function DigitChar(d: nat): (c: char)
    requires d < 10
    ensures IsDigit(c)
  {
    ('0' as int + d) as char
  }

  function DigitValue(c: char): (d: nat)
    requires IsDigit(c)
    ensures d < 10 && DigitChar(d) == c
  {
    c as int - '0' as int
  }

  /** Decimal rendering of a natural number (`String(n)` / template `${n}`). */
  function NatToString(n: nat): (r: string)
    ensures |r| > 0 && AllDigits(r)
    decreases n
  {
    if n < 10 then [DigitChar(n)] else NatToString(n / 10) + [DigitChar(n % 10)]
  }

  /** Decimal rendering of an integer, with a leading minus when negative. */
  function IntToString(i: int): (r: string)
    ensures |r| > 0
    ensures i >= 0 ==> r == NatToString(i)
    ensures i < 0 ==> r[0] == '-' && r[1..] == NatToString(-i)
  {
    if i < 0 then "-" + NatToString(-i) else NatToString(i)
  }

  /** Value of a string of decimal digits, most significant first. */
  function ParseDigits(s: string): nat
    requires AllDigits(s)
  {
    if s == [] then 0 else ParseDigits(s[..|s| - 1]) * 10 + DigitValue(s[|s| - 1])
  }

  /** Reading back a rendered natural number gives the number. */
  lemma {:induction false} ParseNatToString(n: nat)
    ensures ParseDigits(NatToString(n)) == n
    decreases n
  {
    var s := NatToString(n);
    if n >= 10 {
      ParseNatToString(n / 10);
      assert s[..|s| - 1] == NatToString(n / 10);
    }
  }

  /** No ", " occurs in `s`. */
  predicate NoSeparator(s: string) {
    forall i :: 0 <= i < |s| - 1 ==> !(s[i] == ',' && s[i + 1] == ' ')
  }

  /** `s.split(", ")`: the pieces between the non-overlapping occurrences of
      the separator, found from the left; there is always at least one. */
  function SplitOnComma(s: string): (r: seq<string>)
    ensures |r| >= 1 && r[0] <= s
    ensures forall i :: 0 <= i < |r| ==> NoSeparator(r[i])
    decreases |s|
  {
    if |s| < 2 then [s]
    else if s[..2] == ", " then [""] + SplitOnComma(s[2..])
    else
      var rest := SplitOnComma(s[1..]);
      [[s[0]] + rest[0]] + rest[1..]
  }

  /** A string without the separator splits into itself alone. */
  lemma {:induction false} SplitNoSeparator(s: string)
    requires NoSeparator(s)
    ensures SplitOnComma(s) == [s]
    decreases |s|
  {
    if |s| >= 2 {
      assert s[..2] != ", " by {
        assert !(s[0] == ',' && s[1] == ' ');
      }
      SplitNoSeparator(s[1..]);
      assert [s[0]] + s[1..] == s;
    }
  }

  /** Joining two separator-free pieces with ", " and splitting again gives
      the two pieces back. */
  lemma {:induction false} SplitJoined(a: string, b: string)
    requires NoSeparator(a) && NoSeparator(b)
    ensures SplitOnComma(a + ", " + b) == [a, b]
    decreases |a|
  {
    var s := a + ", " + b;
    if a == [] {
      assert s[..2] == ", " && s[2..] == b;
      SplitNoSeparator(b);
    } else {
      assert s[..2] != ", " by {
        if |a| == 1 {
          assert s[1] == ',';
        } else {
          assert s[0] == a[0] && s[1] == a[1];
          assert !(a[0] == ',' && a[1] == ' ');
        }
      }
      assert s[1..] == a[1..] + ", " + b;
      SplitJoined(a[1..], b);
      assert [a[0]] + a[1..] == a;
    }
  }

  /** The run of decimal digits at the start of `s`. */
  function LeadingDigits(s: string): (r: string)
    ensures r <= s && AllDigits(r)
    ensures |r| < |s| ==> !IsDigit(s[|r|])
  {
    if s != [] && IsDigit(s[0]) then [s[0]] + LeadingDigits(s[1..]) else []
  }

  /** `parseFloat` on text without a decimal point or exponent: leading
      whitespace is skipped, an optional sign read, then the leading digits;
      `NaN` (here `None`) when no digit follows. */
  function ParseNumber(s: string): (r: Option<int>)
    ensures r.None? <==>
      var t := TrimStart(s);
      LeadingDigits(if t != [] && (t[0] == '-' || t[0] == '+') then t[1..] else t) == []
  {
    var t := TrimStart(s);
    if t != [] && (t[0] == '-' || t[0] == '+') then
      var d := LeadingDigits(t[1..]);
      var v: int := if d == [] then 0 else ParseDigits(d);
      if d == [] then None else Some(if t[0] == '-' then -v else v)
    else
      var d := LeadingDigits(t);
      if d == [] then None else Some(ParseDigits(d))
  }

  /** `parseFloat(String(n))` gives `n` back for every integer. */
  lemma ParseNumberIntToString(n: int)
    ensures ParseNumber(IntToString(n)) == Some(n)
  {
    var s := IntToString(n);
    assert !IsSpace(s[0]);
    assert TrimStart(s) == s;
    if n < 0 {
      var digits := NatToString(-n);
      assert s[1..] == digits;
      LeadingAllDigits(digits);
      ParseNatToString(-n);
    } else {
      assert s[0] != '-' && s[0] != '+' by {
        assert IsDigit(s[0]);
      }
      LeadingAllDigits(s);
      ParseNatToString(n);
    }
  }

  /** A non-empty string of digits reads as its decimal value. */
  lemma ParseNumberDigits(s: string)
    requires AllDigits(s) && s != []
    ensures ParseNumber(s) == Some(ParseDigits(s))
  {
    assert !IsSpace(s[0]);
    assert TrimStart(s) == s;
    LeadingAllDigits(s);
  }

  lemma {:induction false} LeadingAllDigits(s: string)
    requires AllDigits(s)
    ensures LeadingDigits(s) == s
  {
    if s != [] {
      LeadingAllDigits(s[1..]);
    }
  }
}

=== FILE: wrappers.dfy ===
/** Failure-compatible wrappers used throughout the model: `Option` for
    TypeScript's `T | undefined` / `T | null`, and `Result` for operations
    that either produce a value or throw an `Error` with a message. */
module Wrappers {

  datatype Option<T> = None | Some(value: T) {

    /** The wrapped value, or `default` when absent (`x ?? default`). */
    function GetOr(default: T): T {
      match this
      case Some(v) => v
      case None => default
    }
  }

  /** `Failure(message)` stands for a thrown `Error(message)`. */
  datatype Result<T> = Success(value: T) | Failure(message: string)
}
